=== FILE: README.md ===
# MM Mega Market client core, in Dafny

This project models the core of the MM Mega Market query client. The client talks to two GraphQL storefronts of the same retailer:

- the consumer storefront ("b2c", online.mmvietnam.com);
- the business storefront ("b2b", mmpro.vn), which accepts a customer login.

The model covers these parts of the client:

- **Configuration** (`Config`): the two storefront profiles, credentials and token, and the request settings with their defaults.
- **Product data** (`Models`): prices and the derived discount, product page addresses, stock status, and the recommended storefront of a comparison.
- **Store directory** (`Stores`): the four known stores and the normalisation of store codes. A store code may be written as `10010`, `b2c_10010_vi` or `mm_10010_vi`. This module also covers the selected store and the store codes written into the configuration.
- **Authenticator** (`Auth`): login by token mutation, token verification, logout, and the request headers of both storefronts.
- **Query executor** (`Executor`): the retry loop. It covers exponential backoff after transport failures and re-login after an authorization error on the business storefront.
- **Catalog** (`Catalog`): one page of search results, a search over every page, and the cross-storefront price comparison.

Every HTTP exchange is abstract:

- The executor is handed `net`, a function from the attempt number to the reply of that request.
- It is also handed `logins`, a function from the number of logins already made to the reply of the next login.
- Login, verification and logout take their reply as a parameter.
- A full search takes the finite sequence of per-page search results.

Results are values: every operation returns the new state rather than mutating it. The client, the authenticator and the store manager share one configuration object; in the model the configuration `UpdateConfigStore` returns is handed to the authenticator, and `StoreSwitchHeaders` shows that every later request then carries the new store code. `Common` holds Python truthiness of optional strings, `or`, substring search, `str.replace(pat, "")` and ASCII `lower()`.

The model follows the code in these places, where its behaviour may be unexpected:

- A successful re-login inside the retry loop uses up an attempt. On the last attempt the operation therefore fails even though the login succeeded.
- The rate limiter runs once per operation, not once per attempt.
- Store codes are not trimmed. A padded spelling such as `" b2c_10010_vi "` resolves to no store.
- `update_config_store` does not change the selected store. This is the function the server's store switch calls.
- A login whose reply carries a null token reports success. It stores the null token, so the client ends up logged out. Inside the retry loop this counts as a successful re-login, and the next request carries no Authorization header.

## Model

| member | source | states |
|---|---|---|
| Common.Or | src/mmmegamarket/auth.py:44-45 | Python `a or b` on optional strings: the result is truthy exactly when either side is, and it is the first argument when that one is truthy and the second otherwise |
| Common.RemoveAll | src/mmmegamarket/stores.py:101 | Python `s.replace(pat, "")`: a string without `pat` is returned unchanged, and a string containing it loses at least the length of one occurrence |
| Common.RemoveAllLeading | src/mmmegamarket/stores.py:101 | after deleting a leading occurrence, the scan goes on over the rest of the string |
| Common.RemoveAllSkip | src/mmmegamarket/stores.py:101 | characters that cannot start the pattern are copied through, and the scan continues behind them |
| Common.RemoveAllCopies | src/mmmegamarket/stores.py:101 | every occurrence is deleted, not only the first: any number of copies of the pattern leave the empty string |
| Config.DefaultConfig | src/mmmegamarket/config.py:32-62 | the default profiles use store codes `b2c_10010_vi` and `mm_10010_vi`; only the business storefront requires a login; credentials and token come from the environment; timeout is 30, there are 3 attempts, and the delay is 1.0 |
| Config.SetB2bCredentials | src/mmmegamarket/config.py:77-80 | stores both credentials and keeps the token and every other setting unchanged |
| Config.SetB2bToken | src/mmmegamarket/config.py:82-84 | stores the token and keeps the credentials and every other setting unchanged |
| Models.NewPriceRange | src/mmmegamarket/models.py:22-25 | an explicit discount is kept; a missing one is derived so that final price plus discount equals the regular price |
| Models.HasDiscount | src/mmmegamarket/models.py:27-29 | when the discount is the one the prices imply, there is a discount exactly when the final price is below the regular price |
| Models.DiscountPercentage | src/mmmegamarket/models.py:27-35 | for a positive regular price the percentage times the regular price is 100 times the discount, and it is positive exactly when the range has a discount; otherwise it is 0 |
| Models.DerivedDiscount | src/mmmegamarket/models.py:22-35 | a derived discount is positive exactly when the final price is below the regular price; the percentage is then in (0, 100] for a non-negative final price |
| Models.ExplicitDiscountKept | src/mmmegamarket/models.py:24-29 | a supplied discount is never recomputed, even when it disagrees with the prices, and it alone decides whether there is a discount |
| Models.FullUrl | src/mmmegamarket/models.py:63-70 | the address is the storefront prefix, then the slug, then ".html"; the slug can be read back from between the two |
| Models.FullUrlRoundTrip | src/mmmegamarket/models.py:63-70 | within one storefront, two addresses are equal exactly when the slugs are |
| Models.FullUrlPerPlatform | src/mmmegamarket/models.py:63-70 | the consumer, business and untagged address forms |
| Models.FinalPrice | src/mmmegamarket/models.py:72-75 | with a derived discount, the final price is the regular price less the discount |
| Models.RegularPrice | src/mmmegamarket/models.py:77-80 | with a derived discount, the regular price is the final price plus the discount |
| Models.FinalIsRegularLessDiscount | src/mmmegamarket/models.py:27-29 | with a derived discount, the product is discounted exactly when the final price is below the regular price |
| Models.IsInStock | src/mmmegamarket/models.py:82-85 | a product in stock has a status that reads "in_stock" once lower-cased |
| Models.InStockIsExact | src/mmmegamarket/models.py:82-85 | the answer depends on the stock status alone; `IN_STOCK` is in stock, and every other status, `in_stock` and `In_Stock` included, is not |
| Models.BetterDeal | src/mmmegamarket/models.py:153 | the recommendation is "B2B" exactly when the difference (consumer price less business price) is positive, and "B2C" otherwise |
| Stores.LookupIn | src/mmmegamarket/stores.py:103 | a found store is in the list with the requested code; when none is found, no store has it |
| Stores.GetStore | src/mmmegamarket/stores.py:89-103 | a resolved store is a known store whose code is the normalised input; when nothing resolves, no known store has that code |
| Stores.KnownCodes | src/mmmegamarket/stores.py:42-48 | the directory's codes are distinct digit strings |
| Stores.NumericCode | src/mmmegamarket/stores.py:101 | normalisation never lengthens a code, and a code containing none of "b2c_", "mm_" and "_vi" is left as it is |
| Stores.B2cStoreCode | src/mmmegamarket/stores.py:17-21 | when the store's numeric code is digits, the consumer code `b2c_<n>_vi` normalises back to it |
| Stores.B2bStoreCode | src/mmmegamarket/stores.py:23-26 | when the store's numeric code is digits, the business code `mm_<n>_vi` normalises back to it |
| Stores.NumericCodeOfPlain | src/mmmegamarket/stores.py:101 | a digit string normalises to itself |
| Stores.NumericCodeOfB2c | src/mmmegamarket/stores.py:101 | `b2c_<digits>_vi` normalises to the digits |
| Stores.NumericCodeOfB2b | src/mmmegamarket/stores.py:101 | `mm_<digits>_vi` normalises to the digits |
| Stores.StoreCodeRoundTrip | src/mmmegamarket/stores.py:17-26 | every known store is found again from its plain code and from both derived codes |
| Stores.SpellingsOf10010 | src/mmmegamarket/stores.py:94 | `10010`, `b2c_10010_vi` and `mm_10010_vi` all resolve to the An Phú store |
| Stores.NumericCodeOfDoubled | src/mmmegamarket/stores.py:101 | a doubled prefix and a doubled suffix, "b2c_b2c_<digits>_vi_vi", still normalise to the digits, because each pass deletes every occurrence |
| Stores.NumericCodeOfPadded | src/mmmegamarket/stores.py:101 | normalisation keeps surrounding spaces |
| Stores.PaddedCodeUnresolved | src/mmmegamarket/stores.py:101-103 | a space-padded spelling of a known code resolves to no store |
| Stores.NewStoreManager | src/mmmegamarket/stores.py:50-52 | a new manager selects store `10010`, whose derived codes are exactly the default configuration's store codes |
| Stores.SetCurrentStore | src/mmmegamarket/stores.py:105-124 | succeeds exactly when the code resolves, and then selects that store; on failure the selection is unchanged |
| Stores.UpdateConfigStore | src/mmmegamarket/stores.py:130-153 | succeeds exactly when the code resolves, and then writes `b2c_<n>_vi` and `mm_<n>_vi` for the normalised code n; otherwise nothing changes; only the two store codes change, and the selected store is never touched |
| Stores.StoreSwitchHeaders | src/mmmegamarket/stores.py:142-153 | once the authenticator holds the updated configuration, the consumer headers carry `b2c_<n>_vi` and the business headers `mm_<n>_vi` for the new store, with the Authorization header and agent unchanged |
| Stores.ListStores | src/mmmegamarket/stores.py:86-87 | the fallback listing is the directory in its own order, with no store left out or repeated; each listed store is found by its own code, and every store some code resolves to is listed |
| Stores.ListStoresFrom | src/mmmegamarket/stores.py:62-87 | a live store list is returned entry by entry, with code and name and no region, even when empty; without one the listing falls back to the known stores |
| Stores.LiveStoresHaveNoRegion | src/mmmegamarket/stores.py:74-80 | stores from the live list carry no region, so no region filter keeps any of them |
| Stores.FilterRegion | src/mmmegamarket/stores.py:167-170 | keeps exactly the stores whose region is set, non-empty and equal to the requested one ignoring case, in their original order, each as often as it is listed |
| Stores.GetStoresByRegion | src/mmmegamarket/stores.py:155-170 | the known stores of a region, membership both ways and in directory order |
| Auth.NewAuthClient | src/mmmegamarket/auth.py:16-22 | a new authenticator adopts the configured token only when it is non-empty |
| Auth.NewClientAuthenticated | src/mmmegamarket/auth.py:16-22 | a new authenticator is logged in exactly when the configuration carries a non-empty token |
| Auth.IsB2bAuthenticated | src/mmmegamarket/auth.py:123-125 | a client that sends a bearer header is logged in, and the only logged-in client that sends none holds the empty token |
| Auth.B2bHeaders | src/mmmegamarket/auth.py:102-113 | business headers carry the business store code and agent, plus a bearer header exactly when the token is non-empty |
| Auth.B2cHeaders | src/mmmegamarket/auth.py:115-121 | consumer headers carry the consumer store code and never an Authorization header |
| Auth.AuthenticateB2b | src/mmmegamarket/auth.py:25-100 | a request is made exactly when both credentials are available; non-empty arguments win over the configuration; the login succeeds exactly on an error-free reply carrying the token field; success stores the token it carries, null included, in the client and the configuration, and failure changes nothing |
| Auth.LoginWithoutCredentials | src/mmmegamarket/auth.py:44-49 | with no password as an argument or in the configuration, whatever the user name, no request is made and nothing changes |
| Auth.VerifyB2bToken | src/mmmegamarket/auth.py:127-168 | a request is made exactly when the token is non-empty; the token is valid exactly when that request gets an error-free reply naming a customer |
| Auth.LogoutB2b | src/mmmegamarket/auth.py:170-206 | with no usable token, logout succeeds without a request; otherwise it succeeds exactly when the revocation result is truthy, which clears the token in the client and the configuration; failure changes nothing |
| Auth.LoginThenLogout | src/mmmegamarket/auth.py:84-125 | login followed by a confirmed revocation goes from a bearer header to logged out; the credentials are kept |
| Auth.EmptyTokenIsAuthenticatedWithoutHeader | src/mmmegamarket/auth.py:110-173 | an empty token counts as logged in but sends no bearer header; verification fails without a request, and logout reports success without a request and keeps the token |
| Auth.EmptyTokenFromLogin | src/mmmegamarket/auth.py:88-93 | a login reply carrying an empty token succeeds and reaches that state |
| Auth.NullTokenFromLogin | src/mmmegamarket/auth.py:88-93 | a login reply carrying a null token reports success but leaves the client logged out, with the token cleared in the configuration and no bearer header |
| Executor.MentionsAuthorization | src/mmmegamarket/api_client.py:101-103 | Python `any` over the errors is true exactly when some error's lower-cased text contains "authorization" |
| Executor.Attempt | src/mmmegamarket/api_client.py:86-117 | one attempt sends exactly one request and at most one login request, and adds the backoff due for its reply; it finishes with a result only on an error-free reply; on the consumer storefront it goes on exactly after a transport failure with attempts left, keeping the state and headers |
| Executor.AttemptGoesOn | src/mmmegamarket/api_client.py:98-117 | on either storefront an attempt goes on exactly after a transport failure with attempts left (same state and headers) or after a business authorization error followed by a successful login (the new state and its headers); every other reply ends the run with the state unchanged; only that re-login makes a login request |
| Executor.RunShape | src/mmmegamarket/api_client.py:85-119 | a run only appends to the trace; it makes at most one request per remaining attempt and at least one when an attempt remains, the first with the current headers; it makes at most one login per request |
| Executor.RunResult | src/mmmegamarket/api_client.py:95-110 | a result is always the body of the last reply, and that body carried no errors |
| Executor.RunBackoffs | src/mmmegamarket/api_client.py:112-117 | the sleeps are exactly 2^j seconds for each transport failure on attempt j, except on the last attempt |
| Executor.RunB2cKeepsState | src/mmmegamarket/api_client.py:72-76 | on the consumer storefront the authenticator is unchanged, no login is made and every request carries the initial headers |
| Executor.ErrorsEndRun | src/mmmegamarket/api_client.py:98-108 | a reply with errors, other than a business authorization error, ends the operation with no result |
| Executor.CleanReplyReturned | src/mmmegamarket/api_client.py:110 | an error-free reply is returned as the result at once |
| Executor.ReauthOnLastAttemptFails | src/mmmegamarket/api_client.py:101-107 | a successful re-login on the last attempt stores the new token but the operation returns no result |
| Executor.TransportFailureRetries | src/mmmegamarket/api_client.py:112-116 | a transport failure with attempts left sleeps 2^k seconds and tries again with the same state and headers |
| Executor.TransportFailureOnLastAttempt | src/mmmegamarket/api_client.py:112-117 | a transport failure on the last attempt ends the operation with no result and no sleep |
| Executor.ReauthFailureEndsRun | src/mmmegamarket/api_client.py:101-108 | an authorization error whose re-login fails ends the operation at once with no result, the state unchanged and exactly one more request; a login request was made exactly when credentials are configured |
| Executor.ReauthRefreshesHeaders | src/mmmegamarket/api_client.py:105-107 | after a successful re-login with an attempt left, the next request carries the new bearer token |
| Executor.ReauthNullTokenDropsHeader | src/mmmegamarket/api_client.py:105-107 | a re-login whose reply carries a null token counts as successful; with an attempt left, the next request carries no Authorization header |
| Executor.RetryLoop | src/mmmegamarket/api_client.py:85-119 | the loop over the attempts computes the reference run |
| Executor.ExecuteQuery | src/mmmegamarket/api_client.py:59-119 | the loop computes the reference `Run`; requests never exceed the attempt budget; a budget of zero or less makes no request and returns nothing; a result is the last, error-free reply; the sleeps are the backoffs; the consumer storefront never changes the authenticator |
| Catalog.ParseProduct | src/mmmegamarket/api_client.py:121-150 | the product copies the item's id, uid, name, SKU, slug, stock status, image, categories and rating, keeps its two prices with their currencies, is tagged with its storefront, and has its discount derived from the two prices |
| Catalog.ToSearchResult | src/mmmegamarket/api_client.py:186-201 | no result exactly when the executor failed or the reply lacks "data" or "products"; otherwise one parsed product per item in order, with the page counts and the requested page |
| Catalog.SearchProducts | src/mmmegamarket/api_client.py:152-201 | a search result comes only from a received reply, and every product is tagged with the searched storefront |
| Catalog.FetchCountCapped | src/mmmegamarket/api_client.py:238-239 | a positive page cap bounds the number of pages fetched |
| Catalog.SearchAllPages | src/mmmegamarket/api_client.py:203-246 | pages 1, 2, … are requested in order until a page is absent or empty, the cap is reached, or the reported page count is reached; every page before the last would have continued; the products are those of the fetched pages in page order |
| Catalog.TwoOfFivePages | src/mmmegamarket/api_client.py:224-244 | with a cap of 2 over a five-page search, exactly two pages are fetched and their products are concatenated |
| Catalog.Compare | src/mmmegamarket/api_client.py:281-296 | the business price plus the difference is the consumer price; for a positive consumer price, the savings times that price is 100 times the difference, and the savings are positive exactly when business is cheaper; otherwise the savings are 0; the recommendation is "B2B" exactly when business is cheaper |
| Catalog.EqualPricesFavourB2c | src/mmmegamarket/api_client.py:281-282 | equal prices give zero savings and recommend the consumer storefront |
| Catalog.IndexBySku | src/mmmegamarket/api_client.py:271 | the index holds exactly the SKUs of the business products |
| Catalog.IndexBySkuKeepsLast | src/mmmegamarket/api_client.py:271 | the product kept for a SKU is the last business product with that SKU |
| Catalog.Join | src/mmmegamarket/api_client.py:273-296 | every comparison comes from some consumer product with an indexed SKU, and every such product's comparison is present |
| Catalog.JoinConcat | src/mmmegamarket/api_client.py:275-296 | joining a concatenation concatenates the joins, so comparisons come in consumer order |
| Catalog.JoinSingle | src/mmmegamarket/api_client.py:276-296 | one consumer product contributes its comparison exactly when its SKU is indexed, and nothing otherwise |
| Catalog.JoinSound | src/mmmegamarket/api_client.py:270-296 | every comparison of the join pairs a consumer product with the last business product of the same SKU |
| Catalog.InsertBySavings | src/mmmegamarket/api_client.py:299 | insertion into a list ordered by non-increasing savings keeps it ordered and one longer |
| Catalog.InsertPermutes | src/mmmegamarket/api_client.py:299 | insertion adds exactly the one element and loses none |
| Catalog.SortBySavings | src/mmmegamarket/api_client.py:299 | the result is ordered by non-increasing savings and as long as the input |
| Catalog.SortPermutes | src/mmmegamarket/api_client.py:299 | the sorted list is a permutation of the input |
| Catalog.SortIsStable | src/mmmegamarket/api_client.py:299 | for every savings value, the elements with that value keep their input order |
| Catalog.ComparePrices | src/mmmegamarket/api_client.py:262-301 | empty when either search failed; otherwise a permutation of the join, ordered by non-increasing savings, with at most one entry per consumer product |
| Catalog.ComparePricesMembers | src/mmmegamarket/api_client.py:296-299 | the comparison holds exactly the comparisons of the join |
| Catalog.ComparePricesSound | src/mmmegamarket/api_client.py:270-296 | every comparison pairs a consumer product with the last business product of the same SKU |
| Catalog.ComparePricesComplete | src/mmmegamarket/api_client.py:275-296 | every consumer product whose SKU the business search also returned is compared against the business product the index keeps for that SKU |
| Catalog.ComparePricesStable | src/mmmegamarket/api_client.py:298-299 | comparisons with equal savings appear in consumer search order |

## Left out

- HTTP, JSON and the GraphQL query texts are not modelled. Replies are abstract `Reply` values. The search term, page size and operation name are not part of the modelled request. `compare_prices`' `max_results` is therefore not modelled either, because it only sets the page size.
- Which request failure counts as a transport error is not modelled. Every `RequestException`, including an HTTP error status, is one `TransportError`.
- Exceptions other than request errors are not modelled, because they escape the client. This covers a missing key in an item, a null "data", and a null "generateCustomerToken" object. A null token inside that object does not raise, and it is modelled.
- The "authorization" test renders each error as a string; the model's errors are those strings. `lower()` is modelled for ASCII letters only.
- `_rate_limit` is not modelled, because it depends only on the clock. It runs once per operation, before the first attempt.
- The sleep after a transport failure is recorded as a trace entry, not slept.
- Request timeouts are not modelled.
- `Product.scraped_at` and every `to_dict` are not modelled, because they hold only the clock or restate fields as a dictionary. Only the recommendation rule `BetterDeal` is kept.
- Floating-point prices are modelled as exact reals. Rounding in the savings percentage is not modelled.
- Pydantic coercion and validation are not modelled.
- The store list query in `list_stores` is abstracted: `ListStoresFrom` receives the "storeList" entries of its reply, or nothing when there is no client, the query fails or raises, or the reply lacks "data" or "storeList".
- `get_current_store` is not modelled separately: it reads `StoreManager.current`.
- The `api_client.py` wrappers `authenticate_b2b` and `is_b2b_authenticated` are not modelled separately, because they only forward to the authenticator.
- The server, the package initialisation and environment loading are not part of this model. `DefaultConfig` takes the three environment values as a parameter.
- Catalog.SearchAllPages: an unbounded page source is not modelled. Pages past the end of the given sequence are absent, so the search stops there at the latest.
- Catalog.SearchProducts: does not state the logging-only branch for an unauthenticated business search, which changes nothing.

=== FILE: auth.dfy ===
/** Login, token verification and logout against the business storefront,
    and the request headers for both storefronts. Each HTTP exchange is an
    abstract `Reply` supplied by the caller. */
module Auth {
  import opened Common
  import opened Config

  /** The authenticator's state: the shared configuration and the bearer
      token it holds, if any. */
  datatype AuthClient = AuthClient(config: MMConfig, token: Option<string>)

  /** Request headers. `authorization` is the value of the Authorization
      header when one is sent. */
  datatype Headers = Headers(
    contentType: string,
    store: string,
    userAgent: string,
    authorization: Option<string>)

  /** A new authenticator adopts the configured token when it is non-empty. */
  function NewAuthClient(config: MMConfig): (c: AuthClient)
    ensures c.config == config
    ensures Truthy(config.b2bAuth.customerToken) ==> c.token == config.b2bAuth.customerToken
    ensures !Truthy(config.b2bAuth.customerToken) ==> c.token == None
  {
    AuthClient(config,
      if Truthy(config.b2bAuth.customerToken) then config.b2bAuth.customerToken else None)
  }

  /** Logged in means holding a token, even an empty one: a client that
      sends a bearer header is logged in, and the only logged-in client
      that sends none holds the empty token. */
  function IsB2bAuthenticated(c: AuthClient): (r: bool)
    ensures B2bHeaders(c).authorization.Some? ==> r
    ensures r && B2bHeaders(c).authorization.None? ==> c.token == Some("")
  {
    c.token.Some?
  }

  /** A fresh authenticator is logged in exactly when the configuration
      carries a non-empty token. */
  lemma NewClientAuthenticated(config: MMConfig)
    ensures IsB2bAuthenticated(NewAuthClient(config)) <==> Truthy(config.b2bAuth.customerToken)
  {
  }

  /** Headers for the business storefront: a bearer header only for a
      non-empty token. */
  function B2bHeaders(c: AuthClient): (h: Headers)
    ensures h.contentType == "application/json"
    ensures h.store == c.config.b2b.storeCode && h.userAgent == c.config.userAgent
    ensures h.authorization.Some? <==> Truthy(c.token)
    ensures Truthy(c.token) ==> h.authorization == Some("Bearer " + c.token.value)
  {
    Headers("application/json", c.config.b2b.storeCode, c.config.userAgent,
      if Truthy(c.token) then Some("Bearer " + c.token.value) else None)
  }

  /** Headers for the consumer storefront: never an Authorization header. */
  function B2cHeaders(c: AuthClient): (h: Headers)
    ensures h.contentType == "application/json"
    ensures h.store == c.config.b2c.storeCode && h.userAgent == c.config.userAgent
    ensures h.authorization.None?
  {
    Headers("application/json", c.config.b2c.storeCode, c.config.userAgent, None)
  }

  /** The credentials a login request carries. */
  datatype Credentials = Credentials(email: string, password: string)

  /** The outcome of a login: success flag, the new state, and the
      credentials sent, absent when no request was made. */
  datatype LoginResult = LoginResult(ok: bool, client: AuthClient, sent: Option<Credentials>)

  /** The answer to the token mutation. Its payload is absent when the
      "generateCustomerToken" field is missing; otherwise it holds that
      field's "token", which is absent when the token is JSON null. */
  type LoginReply = Reply<Option<Option<string>>>

  /** Exchanges credentials for a token. Non-empty arguments win over the
      configured credentials. The token the reply carries, null included,
      is stored in the client and in the configuration. */
  function AuthenticateB2b(c: AuthClient, username: Option<string>, password: Option<string>,
                           reply: LoginReply): (r: LoginResult)
    ensures r.sent.Some? <==> (Truthy(username) || Truthy(c.config.b2bAuth.username))
                              && (Truthy(password) || Truthy(c.config.b2bAuth.password))
    ensures r.sent.Some? && Truthy(username) ==> r.sent.value.email == username.value
    ensures r.sent.Some? && Truthy(password) ==> r.sent.value.password == password.value
    ensures r.sent.Some? && !Truthy(username) ==> Some(r.sent.value.email) == c.config.b2bAuth.username
    ensures r.sent.Some? && !Truthy(password) ==> Some(r.sent.value.password) == c.config.b2bAuth.password
    ensures r.ok <==> r.sent.Some? && reply.Received? && reply.body.errors.None?
                      && reply.body.data.Some? && reply.body.data.value.Some?
    ensures r.ok ==> r.client.token == reply.body.data.value.value
                     && r.client.config == c.config.(b2bAuth := c.config.b2bAuth.(customerToken := r.client.token))
    ensures r.ok && r.client.token.Some? ==> r.client.config == SetB2bToken(c.config, r.client.token.value)
    ensures !r.ok ==> r.client == c
  {
    var email := Or(username, c.config.b2bAuth.username);
    var pwd := Or(password, c.config.b2bAuth.password);
    if !Truthy(email) || !Truthy(pwd) then LoginResult(false, c, None)
    else
      var sent := Some(Credentials(email.value, pwd.value));
      match reply
      case TransportError => LoginResult(false, c, sent)
      case Received(body) =>
        if body.errors.Some? then LoginResult(false, c, sent)
        else if body.data.Some? && body.data.value.Some? then
          var token := body.data.value.value;
          LoginResult(true, AuthClient(c.config.(b2bAuth := c.config.b2bAuth.(customerToken := token)), token), sent)
        else LoginResult(false, c, sent)
  }

  /** Missing credentials: no request, no change. */
  lemma LoginWithoutCredentials(c: AuthClient, username: Option<string>, password: Option<string>, reply: LoginReply)
    requires !Truthy(password) && !Truthy(c.config.b2bAuth.password)
    ensures AuthenticateB2b(c, username, password, reply) == LoginResult(false, c, None)
  {
  }

  /** The outcome of verification: validity and whether a request was made. */
  datatype VerifyResult = VerifyResult(valid: bool, requested: bool)

  /** Checks the token by asking for the customer. The reply's payload says
      whether the "customer" field is present. */
  function VerifyB2bToken(c: AuthClient, reply: Reply<bool>): (r: VerifyResult)
    ensures r.requested <==> Truthy(c.token)
    ensures r.valid <==> r.requested && reply == Received(Body(None, Some(true)))
  {
    if !Truthy(c.token) then VerifyResult(false, false)
    else
      match reply
      case TransportError => VerifyResult(false, true)
      case Received(body) =>
        VerifyResult(body.errors.None? && body.data == Some(true), true)
  }

  /** The outcome of a logout. */
  datatype LogoutResult = LogoutResult(ok: bool, client: AuthClient, requested: bool)

  /** Revokes the token. The reply's payload says whether the revocation
      result is truthy; an "errors" list is not consulted. */
  function LogoutB2b(c: AuthClient, reply: Reply<bool>): (r: LogoutResult)
    ensures !Truthy(c.token) ==> r == LogoutResult(true, c, false)
    ensures Truthy(c.token) ==> r.requested
    ensures Truthy(c.token) ==>
              (r.ok <==> reply.Received? && reply.body.data == Some(true))
    ensures r.ok && r.requested ==> r.client.token.None? && r.client.config.b2bAuth.customerToken.None?
    ensures r.ok && r.requested ==> r.client.config == c.config.(b2bAuth := c.config.b2bAuth.(customerToken := None))
    ensures !r.ok ==> r.client == c
  {
    if !Truthy(c.token) then LogoutResult(true, c, false)
    else
      match reply
      case TransportError => LogoutResult(false, c, true)
      case Received(body) =>
        if body.data == Some(true) then
          LogoutResult(true, AuthClient(c.config.(b2bAuth := c.config.b2bAuth.(customerToken := None)), None), true)
        else LogoutResult(false, c, true)
  }

  /** A successful login followed by a confirmed revocation ends logged out,
      with the token cleared everywhere and the credentials kept. */
  lemma LoginThenLogout(c: AuthClient, username: Option<string>, password: Option<string>,
                        token: string, revoke: Reply<bool>)
    requires token != ""
    requires AuthenticateB2b(c, username, password, Received(Body(None, Some(Some(Some(token)))))).ok
    requires revoke.Received? && revoke.body.data == Some(true)
    ensures var li := AuthenticateB2b(c, username, password, Received(Body(None, Some(Some(Some(token))))));
            var lo := LogoutB2b(li.client, revoke);
            IsB2bAuthenticated(li.client)
            && B2bHeaders(li.client).authorization == Some("Bearer " + token)
            && lo.ok && !IsB2bAuthenticated(lo.client)
            && B2bHeaders(lo.client).authorization.None?
            && lo.client.config.b2bAuth.username == c.config.b2bAuth.username
            && lo.client.config.b2bAuth.password == c.config.b2bAuth.password
  {
  }

  /** An empty token counts as logged in but sends no Authorization header;
      verification then makes no request and fails, and logout makes no
      request, reports success and keeps the empty token. */
  lemma EmptyTokenIsAuthenticatedWithoutHeader(c: AuthClient, r1: Reply<bool>, r2: Reply<bool>)
    requires c.token == Some("")
    ensures IsB2bAuthenticated(c)
    ensures B2bHeaders(c).authorization.None?
    ensures VerifyB2bToken(c, r1) == VerifyResult(false, false)
    ensures LogoutB2b(c, r2) == LogoutResult(true, c, false)
    ensures IsB2bAuthenticated(LogoutB2b(c, r2).client)
  {
  }

  /** A login whose reply carries an empty token succeeds and reaches the
      empty-token state. */
  lemma EmptyTokenFromLogin(c: AuthClient, username: Option<string>, password: Option<string>)
    requires Truthy(username) && Truthy(password)
    ensures var r := AuthenticateB2b(c, username, password, Received(Body(None, Some(Some(Some(""))))));
            r.ok && r.client.token == Some("") && IsB2bAuthenticated(r.client)
            && B2bHeaders(r.client).authorization.None?
  {
  }

  /** A login whose reply carries a null token reports success but leaves
      the client logged out, with the token cleared in the configuration
      and no Authorization header. */
  lemma NullTokenFromLogin(c: AuthClient, username: Option<string>, password: Option<string>)
    requires Truthy(username) && Truthy(password)
    ensures var r := AuthenticateB2b(c, username, password, Received(Body(None, Some(Some(None)))));
            r.ok && !IsB2bAuthenticated(r.client) && r.client.config.b2bAuth.customerToken.None?
            && B2bHeaders(r.client).authorization.None?
  {
  }
}

=== FILE: catalog.dfy ===
/** Catalog operations built on the executor: one page of search results,
    every page of a search, and the cross-storefront price comparison. */
module Catalog {
  import opened Common
  import opened Models
  import opened Auth
  import opened Executor

  /** One raw search item, already typed. */
  datatype ProductItem = ProductItem(
    id: int,
    uid: string,
    name: string,
    sku: string,
    finalPrice: Price,
    regularPrice: Price,
    smallImageUrl: Option<string>,
    stockStatus: string,
    urlKey: string,
    categories: seq<Category>,
    ratingSummary: Option<real>)

  /** The "products" field of a search reply. */
  datatype ProductsPayload = ProductsPayload(items: seq<ProductItem>, totalCount: int, totalPages: int)

  /** The "data" field of a search reply; `products` is absent when the
      field is missing. */
  datatype SearchData = SearchData(products: Option<ProductsPayload>)

  /** The typed product for an item, tagged with its storefront; the
      discount is derived from the two prices. */
  function ParseProduct(item: ProductItem, p: Platform): (r: Product)
    ensures r.id == item.id && r.uid == item.uid && r.sku == item.sku && r.name == item.name
    ensures r.urlKey == item.urlKey && r.stockStatus == item.stockStatus
    ensures r.smallImageUrl == item.smallImageUrl && r.categories == item.categories
    ensures r.ratingSummary == item.ratingSummary
    ensures r.platform == Some(PlatformName(p))
    ensures r.priceRange.finalPrice == item.finalPrice && r.priceRange.regularPrice == item.regularPrice
    ensures FinalPrice(r) == item.finalPrice.value && RegularPrice(r) == item.regularPrice.value
    ensures FinalPrice(r) + r.priceRange.discountAmount == RegularPrice(r)
  {
    Product(item.id, item.uid, item.name, item.sku,
      NewPriceRange(item.finalPrice, item.regularPrice, None),
      item.stockStatus, item.urlKey, item.smallImageUrl, item.categories,
      item.ratingSummary, Some(PlatformName(p)))
  }

  /** The search result for the executor's answer `resp` to a request for
      page `page`: absent when the executor failed or the reply lacks
      "data" or "products". */
  function ToSearchResult(resp: Option<Body<SearchData>>, p: Platform, page: int): (r: Option<SearchResult>)
    ensures r.None? <==> resp.None? || resp.value.data.None? || resp.value.data.value.products.None?
    ensures r.Some? ==>
              var pl := resp.value.data.value.products.value;
              && |r.value.products| == |pl.items|
              && (forall i :: 0 <= i < |pl.items| ==> r.value.products[i] == ParseProduct(pl.items[i], p))
              && r.value.totalCount == pl.totalCount
              && r.value.totalPages == pl.totalPages
              && r.value.currentPage == page
              && r.value.platform == PlatformName(p)
  {
    if resp.None? || resp.value.data.None? || resp.value.data.value.products.None? then None
    else
      var pl := resp.value.data.value.products.value;
      Some(SearchResult(seq(|pl.items|, i requires 0 <= i < |pl.items| => ParseProduct(pl.items[i], p)),
                        pl.totalCount, pl.totalPages, page, PlatformName(p)))
  }

  /** Searches one page on platform `p`. The search term and page size
      travel in the request the oracle `net` answers. */
  method SearchProducts(c: AuthClient, p: Platform, page: int, net: nat -> Reply<SearchData>,
                        logins: nat -> LoginReply) returns (r: Option<SearchResult>, e: Execution<SearchData>)
    ensures r == ToSearchResult(e.result, p, page)
    ensures e == Run(p, c.config.retryAttempts, 0, c, InitialHeaders(c, p), NoTrace, net, logins)
    ensures r.Some? ==> |e.trace.sent| >= 1 && net(|e.trace.sent| - 1).Received?
    ensures r.Some? ==> forall i :: 0 <= i < |r.value.products| ==> r.value.products[i].platform == Some(PlatformName(p))
  {
    e := ExecuteQuery(c, p, net, logins);
    r := ToSearchResult(e.result, p, page);
  }

  /** Page `i` (from 1) of a full search; `pages[i - 1]` is the search
      result for page `i`, and pages past the end are absent. */
  function PageAt(pages: seq<Option<SearchResult>>, i: int): Option<SearchResult> {
    if 1 <= i <= |pages| then pages[i - 1] else None
  }

  function PageItems(r: Option<SearchResult>): seq<Product> {
    if r.Some? then r.value.products else []
  }

  /** A page cap is in force when given and non-zero. */
  predicate CapInForce(maxPages: Option<int>) {
    maxPages.Some? && maxPages.value != 0
  }

  /** After fetching page `page`, the search goes on to the next page: the
      page was present and non-empty, below the cap, and below the page
      count that page reported. */
  predicate Continues(pages: seq<Option<SearchResult>>, maxPages: Option<int>, page: int) {
    var r := PageAt(pages, page);
    && r.Some?
    && r.value.products != []
    && !(CapInForce(maxPages) && page >= maxPages.value)
    && page < r.value.totalPages
  }

  /** The products of pages 1 to `m`, in page order. */
  function Gathered(pages: seq<Option<SearchResult>>, m: nat): seq<Product> {
    if m == 0 then [] else Gathered(pages, m - 1) + PageItems(PageAt(pages, m))
  }

  /** How many pages a full search fetches from page `page` on. */
  function FetchCount(pages: seq<Option<SearchResult>>, maxPages: Option<int>, page: nat): nat
    requires page >= 1
    decreases |pages| + 1 - page
  {
    if Continues(pages, maxPages, page) then 1 + FetchCount(pages, maxPages, page + 1) else 1
  }

  /** A positive cap bounds the pages fetched. */
  lemma {:induction false} FetchCountCapped(pages: seq<Option<SearchResult>>, maxPages: Option<int>, page: nat)
    requires CapInForce(maxPages) && 1 <= page <= maxPages.value
    ensures FetchCount(pages, maxPages, page) <= maxPages.value - page + 1
    decreases |pages| + 1 - page
  {
    if Continues(pages, maxPages, page) {
      FetchCountCapped(pages, maxPages, page + 1);
    }
  }

  /** Fetches pages 1, 2, … of a search until a page is absent or empty,
      the cap is reached, or the reported page count is reached; returns
      the products in page order and the pages requested. */
  method SearchAllPages(pages: seq<Option<SearchResult>>, maxPages: Option<int>)
    returns (products: seq<Product>, requested: seq<int>)
    ensures |requested| == FetchCount(pages, maxPages, 1)
    ensures forall i :: 0 <= i < |requested| ==> requested[i] == i + 1
    ensures products == Gathered(pages, |requested|)
    ensures forall i :: 1 <= i < |requested| ==> Continues(pages, maxPages, i)
    ensures !Continues(pages, maxPages, |requested|)
    ensures CapInForce(maxPages) && maxPages.value >= 1 ==> |requested| <= maxPages.value
  {
    products := [];
    requested := [];
    var page := 1;
    while true
      invariant 1 <= page <= |pages| + 1
      invariant |requested| == page - 1
      invariant forall i :: 0 <= i < |requested| ==> requested[i] == i + 1
      invariant products == Gathered(pages, page - 1)
      invariant forall i :: 1 <= i < page ==> Continues(pages, maxPages, i)
      invariant FetchCount(pages, maxPages, 1) == page - 1 + FetchCount(pages, maxPages, page)
      invariant CapInForce(maxPages) && maxPages.value >= 1 ==> page <= maxPages.value
      decreases |pages| + 1 - page
    {
      requested := requested + [page];
      var result := PageAt(pages, page);
      if result.None? || result.value.products == [] {
        assert Gathered(pages, page) == products + [];
        break;
      }
      products := products + result.value.products;
      if CapInForce(maxPages) && page >= maxPages.value {
        break;
      }
      if page >= result.value.totalPages {
        break;
      }
      page := page + 1;
    }
  }

  /** With a cap of 2 and pages reporting 5 pages in all, exactly the
      first two pages are fetched. */
  lemma TwoOfFivePages(pages: seq<Option<SearchResult>>)
    requires |pages| >= 2
    requires pages[0].Some? && pages[0].value.products != [] && pages[0].value.totalPages == 5
    requires pages[1].Some? && pages[1].value.products != [] && pages[1].value.totalPages == 5
    ensures FetchCount(pages, Some(2), 1) == 2
    ensures Gathered(pages, 2) == pages[0].value.products + pages[1].value.products
  {
    assert PageAt(pages, 1) == pages[0] && PageAt(pages, 2) == pages[1];
    assert Continues(pages, Some(2), 1);
    assert !Continues(pages, Some(2), 2);
    assert FetchCount(pages, Some(2), 2) == 1;
    GatheredFirst(pages);
  }

  lemma GatheredFirst(pages: seq<Option<SearchResult>>)
    requires |pages| >= 1
    ensures Gathered(pages, 1) == PageItems(pages[0])
  {
    assert Gathered(pages, 0) == [];
    assert PageAt(pages, 1) == pages[0];
  }

  /** Compares one product across the two storefronts. */
  function Compare(c: Product, b: Product): (r: PriceComparison)
    ensures r.productId == c.id && r.sku == c.sku && r.name == c.name
    ensures r.b2cUrl == FullUrl(c) && r.b2bUrl == FullUrl(b)
    ensures r.b2cPrice == FinalPrice(c) && r.b2bPrice == FinalPrice(b)
    ensures r.b2bPrice + r.difference == r.b2cPrice
    ensures r.b2cPrice > 0.0 ==> r.savingsPercentage * r.b2cPrice == r.difference * 100.0
    ensures r.b2cPrice > 0.0 ==> (r.savingsPercentage > 0.0 <==> r.b2bPrice < r.b2cPrice)
    ensures r.b2cPrice <= 0.0 ==> r.savingsPercentage == 0.0
    ensures BetterDeal(r) == "B2B" <==> r.b2bPrice < r.b2cPrice
  {
    var difference := FinalPrice(c) - FinalPrice(b);
    var savings := if FinalPrice(c) > 0.0 then difference / FinalPrice(c) * 100.0 else 0.0;
    PriceComparison(c.id, c.sku, c.name, FinalPrice(c), FinalPrice(b), difference, savings,
                    FullUrl(c), FullUrl(b))
  }

  /** Equal prices recommend the consumer storefront. */
  lemma EqualPricesFavourB2c(c: Product, b: Product)
    requires FinalPrice(c) == FinalPrice(b)
    ensures BetterDeal(Compare(c, b)) == "B2C"
    ensures Compare(c, b).savingsPercentage == 0.0
  {
  }

  /** Index `i` holds the last product of `ps` with its SKU. */
  predicate IsLastWithSku(ps: seq<Product>, i: int) {
    0 <= i < |ps| && forall j :: i < j < |ps| ==> ps[j].sku != ps[i].sku
  }

  /** Some product of `ps` has SKU `sku`. */
  predicate HasSku(ps: seq<Product>, sku: string) {
    exists i :: 0 <= i < |ps| && ps[i].sku == sku
  }

  /** Products keyed by SKU; a later product replaces an earlier one. */
  function IndexBySku(ps: seq<Product>): (m: map<string, Product>)
    ensures forall sku :: sku in m <==> HasSku(ps, sku)
  {
    if ps == [] then map[]
    else
      var pre := ps[..|ps| - 1];
      var m := IndexBySku(pre);
      assert forall i :: 0 <= i < |pre| ==> pre[i] == ps[i];
      m[ps[|ps| - 1].sku := ps[|ps| - 1]]
  }

  /** The product kept for a SKU is the last one with that SKU. */
  lemma {:induction false} IndexBySkuKeepsLast(ps: seq<Product>, sku: string)
    requires sku in IndexBySku(ps)
    ensures exists i :: IsLastWithSku(ps, i) && ps[i].sku == sku && IndexBySku(ps)[sku] == ps[i]
  {
    var last := |ps| - 1;
    var pre := ps[..last];
    var m := IndexBySku(ps);
    assert m == IndexBySku(pre)[ps[last].sku := ps[last]];
    if ps[last].sku == sku {
      assert IsLastWithSku(ps, last) && ps[last].sku == sku && m[sku] == ps[last];
    } else {
      assert sku in IndexBySku(pre) && m[sku] == IndexBySku(pre)[sku];
      IndexBySkuKeepsLast(pre, sku);
      var i :| IsLastWithSku(pre, i) && pre[i].sku == sku && IndexBySku(pre)[sku] == pre[i];
      LastWithSkuExtends(ps, i);
      assert IsLastWithSku(ps, i) && ps[i].sku == sku && m[sku] == ps[i];
    }
  }

  /** An index that is the last with its SKU before the final product
      stays so when the final product has another SKU. */
  lemma LastWithSkuExtends(ps: seq<Product>, i: int)
    requires ps != [] && IsLastWithSku(ps[..|ps| - 1], i) && ps[|ps| - 1].sku != ps[i].sku
    ensures IsLastWithSku(ps, i) && ps[..|ps| - 1][i] == ps[i]
  {
    forall j | i < j < |ps|
      ensures ps[j].sku != ps[i].sku
    {
      if j < |ps| - 1 {
        assert ps[..|ps| - 1][j] == ps[j];
      }
    }
  }

  /** `x` is the comparison of some consumer product in `cs` with its
      business counterpart in `m`. */
  predicate ComparesSome(cs: seq<Product>, m: map<string, Product>, x: PriceComparison) {
    exists i :: 0 <= i < |cs| && cs[i].sku in m && x == Compare(cs[i], m[cs[i].sku])
  }

  /** One comparison per consumer product whose SKU the business index
      holds, in consumer order. */
  function Join(cs: seq<Product>, m: map<string, Product>): (r: seq<PriceComparison>)
    ensures |r| <= |cs|
    ensures forall k :: 0 <= k < |r| ==> ComparesSome(cs, m, r[k])
    ensures forall i :: 0 <= i < |cs| && cs[i].sku in m ==> Compare(cs[i], m[cs[i].sku]) in r
  {
    if cs == [] then []
    else
      var rest := Join(cs[1..], m);
      assert forall i :: 1 <= i < |cs| ==> cs[i] == cs[1..][i - 1];
      forall x | ComparesSome(cs[1..], m, x)
        ensures ComparesSome(cs, m, x)
      {
        TailComparesSome(cs, m, x);
      }
      if cs[0].sku in m then [Compare(cs[0], m[cs[0].sku])] + rest else rest
  }

  /** The join works product by product: joining a concatenation joins
      each part and concatenates the results, so comparisons come in
      consumer order, one for each product whose SKU is indexed. */
  lemma {:induction false} JoinConcat(a: seq<Product>, b: seq<Product>, m: map<string, Product>)
    ensures Join(a + b, m) == Join(a, m) + Join(b, m)
    decreases |a|
  {
    if a == [] {
      assert a + b == b;
    } else {
      assert (a + b)[1..] == a[1..] + b;
      assert (a + b)[0] == a[0];
      JoinConcat(a[1..], b, m);
    }
  }

  /** A single consumer product contributes its comparison exactly when
      its SKU is indexed. */
  lemma JoinSingle(c: Product, m: map<string, Product>)
    ensures Join([c], m) == if c.sku in m then [Compare(c, m[c.sku])] else []
  {
    assert [c][1..] == [];
  }

  /** A comparison of a product of the tail is a comparison of a product
      of the whole sequence. */
  lemma TailComparesSome(cs: seq<Product>, m: map<string, Product>, x: PriceComparison)
    requires cs != [] && ComparesSome(cs[1..], m, x)
    ensures ComparesSome(cs, m, x)
  {
    var tail := cs[1..];
    var i :| 0 <= i < |tail| && tail[i].sku in m && x == Compare(tail[i], m[tail[i].sku]);
    assert cs[i + 1] == tail[i];
  }

  /** Non-increasing savings. */
  predicate SortedBySavings(s: seq<PriceComparison>) {
    forall i, j :: 0 <= i < j < |s| ==> s[i].savingsPercentage >= s[j].savingsPercentage
  }

  /** Prepending an element that saves at least as much as the first
      element of a sorted sequence keeps it sorted. */
  lemma ConsSorted(h: PriceComparison, s: seq<PriceComparison>)
    requires SortedBySavings(s)
    requires s != [] ==> s[0].savingsPercentage <= h.savingsPercentage
    ensures SortedBySavings([h] + s)
  {
    var r := [h] + s;
    forall i, j | 0 <= i < j < |r|
      ensures r[i].savingsPercentage >= r[j].savingsPercentage
    {
      assert r[j] == s[j - 1];
      if i > 0 {
        assert r[i] == s[i - 1];
      } else if j > 1 {
        assert s[0].savingsPercentage >= s[j - 1].savingsPercentage;
      }
    }
  }

  /** Inserts `x` after every element saving at least as much. The result
      starts with `x` or with the first element of `s`. */
  function InsertBySavings(x: PriceComparison, s: seq<PriceComparison>): (r: seq<PriceComparison>)
    requires SortedBySavings(s)
    ensures SortedBySavings(r)
    ensures |r| == |s| + 1
    ensures r[0] == x || (s != [] && r[0] == s[0])
  {
    if s == [] || s[0].savingsPercentage < x.savingsPercentage then
      ConsSorted(x, s);
      [x] + s
    else
      var rest := InsertBySavings(x, s[1..]);
      assert s[1..] != [] ==> s[0].savingsPercentage >= s[1].savingsPercentage;
      ConsSorted(s[0], rest);
      [s[0]] + rest
  }

  /** Insertion adds exactly the one element. */
  lemma {:induction false} InsertPermutes(x: PriceComparison, s: seq<PriceComparison>)
    requires SortedBySavings(s)
    ensures multiset(InsertBySavings(x, s)) == multiset(s) + multiset{x}
  {
    if s != [] && s[0].savingsPercentage >= x.savingsPercentage {
      InsertPermutes(x, s[1..]);
      MultisetCons(s);
    }
  }

  lemma MultisetCons<T>(s: seq<T>)
    requires s != []
    ensures multiset(s) == multiset{s[0]} + multiset(s[1..])
  {
    assert s == [s[0]] + s[1..];
  }

  lemma MultisetSnoc<T>(s: seq<T>)
    requires s != []
    ensures multiset(s) == multiset(s[..|s| - 1]) + multiset{s[|s| - 1]}
  {
    assert s == s[..|s| - 1] + [s[|s| - 1]];
  }

  /** Sorts by savings, highest first, keeping input order among equals. */
  function SortBySavings(s: seq<PriceComparison>): (r: seq<PriceComparison>)
    ensures SortedBySavings(r)
    ensures |r| == |s|
  {
    if s == [] then []
    else
      var pre := s[..|s| - 1];
      InsertBySavings(s[|s| - 1], SortBySavings(pre))
  }

  /** The sort rearranges its input without adding or dropping anything. */
  lemma {:induction false} SortPermutes(s: seq<PriceComparison>)
    ensures multiset(SortBySavings(s)) == multiset(s)
  {
    if s != [] {
      var pre := s[..|s| - 1];
      SortPermutes(pre);
      InsertPermutes(s[|s| - 1], SortBySavings(pre));
      MultisetSnoc(s);
    }
  }

  /** The elements of `s` saving exactly `v`, in order. */
  function WithSavings(s: seq<PriceComparison>, v: real): seq<PriceComparison> {
    if s == [] then []
    else (if s[0].savingsPercentage == v then [s[0]] else []) + WithSavings(s[1..], v)
  }

  lemma {:induction false} WithSavingsConcat(a: seq<PriceComparison>, b: seq<PriceComparison>, v: real)
    ensures WithSavings(a + b, v) == WithSavings(a, v) + WithSavings(b, v)
  {
    if a != [] {
      assert (a + b)[1..] == a[1..] + b;
      WithSavingsConcat(a[1..], b, v);
    } else {
      assert a + b == b;
    }
  }

  lemma {:induction false} WithSavingsNone(s: seq<PriceComparison>, v: real)
    requires forall i :: 0 <= i < |s| ==> s[i].savingsPercentage < v
    ensures WithSavings(s, v) == []
  {
    if s != [] {
      WithSavingsNone(s[1..], v);
    }
  }

  /** Filtering a sequence with a known first element. */
  lemma WithSavingsCons(h: PriceComparison, t: seq<PriceComparison>, v: real)
    ensures WithSavings([h] + t, v) == (if h.savingsPercentage == v then [h] else []) + WithSavings(t, v)
  {
    assert ([h] + t)[1..] == t;
  }

  /** Every element of a sorted sequence saves no more than its first. */
  lemma HeadIsMax(s: seq<PriceComparison>)
    requires SortedBySavings(s) && s != []
    ensures forall i :: 0 <= i < |s| ==> s[i].savingsPercentage <= s[0].savingsPercentage
  {
    forall i | 0 < i < |s|
      ensures s[i].savingsPercentage <= s[0].savingsPercentage
    {
    }
  }

  /** Insertion puts `x` after the equal elements already there. */
  lemma {:induction false} InsertIsStable(x: PriceComparison, s: seq<PriceComparison>, v: real)
    requires SortedBySavings(s)
    ensures WithSavings(InsertBySavings(x, s), v) == WithSavings(s, v) + if x.savingsPercentage == v then [x] else []
  {
    if s == [] || s[0].savingsPercentage < x.savingsPercentage {
      assert InsertBySavings(x, s) == [x] + s;
      WithSavingsCons(x, s, v);
      if x.savingsPercentage == v && s != [] {
        HeadIsMax(s);
        WithSavingsNone(s, v);
      }
    } else {
      var rest := InsertBySavings(x, s[1..]);
      assert InsertBySavings(x, s) == [s[0]] + rest;
      InsertIsStable(x, s[1..], v);
      WithSavingsCons(s[0], rest, v);
    }
  }

  /** The sort inserts the last element into the sorted prefix. */
  lemma {:induction false} SortUnfold(s: seq<PriceComparison>)
    requires s != []
    ensures SortBySavings(s) == InsertBySavings(s[|s| - 1], SortBySavings(s[..|s| - 1]))
  {
  }

  /** Filtering splits off the last element. */
  lemma {:induction false} WithSavingsLast(s: seq<PriceComparison>, v: real)
    requires s != []
    ensures WithSavings(s, v) == WithSavings(s[..|s| - 1], v) + if s[|s| - 1].savingsPercentage == v then [s[|s| - 1]] else []
  {
    var x := s[|s| - 1];
    assert s == s[..|s| - 1] + [x];
    WithSavingsConcat(s[..|s| - 1], [x], v);
    assert [x][1..] == [];
  }

  /** The sort is stable: for every savings value, the elements with that
      value keep their input order. */
  lemma {:induction false} SortIsStable(s: seq<PriceComparison>, v: real)
    ensures WithSavings(SortBySavings(s), v) == WithSavings(s, v)
  {
    if s != [] {
      var pre := s[..|s| - 1];
      var x := s[|s| - 1];
      var sorted := SortBySavings(pre);
      SortUnfold(s);
      SortIsStable(pre, v);
      InsertIsStable(x, sorted, v);
      WithSavingsLast(s, v);
    }
  }

  /** Compares prices between the consumer search `b2c` and the business
      search `b2b` (each absent when that search failed). */
  function ComparePrices(b2c: Option<SearchResult>, b2b: Option<SearchResult>): (r: seq<PriceComparison>)
    ensures b2c.None? || b2b.None? ==> r == []
    ensures b2c.Some? && b2b.Some? ==>
              && SortedBySavings(r)
              && multiset(r) == multiset(Join(b2c.value.products, IndexBySku(b2b.value.products)))
              && |r| <= |b2c.value.products|
  {
    if b2c.None? || b2b.None? then []
    else
      var joined := Join(b2c.value.products, IndexBySku(b2b.value.products));
      SortPermutes(joined);
      SortBySavings(joined)
  }

  /** The comparison holds exactly the comparisons of the join. */
  lemma ComparePricesMembers(b2c: SearchResult, b2b: SearchResult, x: PriceComparison)
    ensures x in ComparePrices(Some(b2c), Some(b2b)) <==> x in Join(b2c.products, IndexBySku(b2b.products))
  {
    var r := ComparePrices(Some(b2c), Some(b2b));
    var joined := Join(b2c.products, IndexBySku(b2b.products));
    assert multiset(r) == multiset(joined);
    assert x in r <==> x in multiset(r);
    assert x in joined <==> x in multiset(joined);
  }

  /** Every comparison of the join compares some consumer product. */
  lemma JoinMember(cs: seq<Product>, m: map<string, Product>, x: PriceComparison)
    requires x in Join(cs, m)
    ensures ComparesSome(cs, m, x)
  {
    var joined := Join(cs, m);
    var k :| 0 <= k < |joined| && joined[k] == x;
  }

  /** Every comparison of the join pairs a consumer product with the last
      business product of the same SKU. */
  lemma JoinSound(cs: seq<Product>, ps: seq<Product>, x: PriceComparison)
    requires x in Join(cs, IndexBySku(ps))
    ensures exists i, j :: 0 <= i < |cs| && IsLastWithSku(ps, j) && cs[i].sku == ps[j].sku
                           && x == Compare(cs[i], ps[j])
  {
    var m := IndexBySku(ps);
    JoinMember(cs, m, x);
    var i :| 0 <= i < |cs| && cs[i].sku in m && x == Compare(cs[i], m[cs[i].sku]);
    IndexBySkuKeepsLast(ps, cs[i].sku);
    var j :| IsLastWithSku(ps, j) && ps[j].sku == cs[i].sku && m[cs[i].sku] == ps[j];
    assert 0 <= i < |cs| && IsLastWithSku(ps, j) && cs[i].sku == ps[j].sku && x == Compare(cs[i], ps[j]);
  }

  /** Every comparison pairs a consumer product with the last business
      product of the same SKU. */
  lemma ComparePricesSound(b2c: SearchResult, b2b: SearchResult, x: PriceComparison)
    requires x in ComparePrices(Some(b2c), Some(b2b))
    ensures exists i, j :: 0 <= i < |b2c.products| && IsLastWithSku(b2b.products, j)
                           && b2c.products[i].sku == b2b.products[j].sku
                           && x == Compare(b2c.products[i], b2b.products[j])
  {
    ComparePricesMembers(b2c, b2b, x);
    JoinSound(b2c.products, b2b.products, x);
  }

  /** Every consumer product whose SKU the business search also returned
      is compared, against the business product the index keeps. */
  lemma ComparePricesComplete(b2c: SearchResult, b2b: SearchResult, i: int, j: int)
    requires 0 <= i < |b2c.products| && 0 <= j < |b2b.products|
    requires b2b.products[j].sku == b2c.products[i].sku
    ensures b2c.products[i].sku in IndexBySku(b2b.products)
    ensures Compare(b2c.products[i], IndexBySku(b2b.products)[b2c.products[i].sku])
              in ComparePrices(Some(b2c), Some(b2b))
  {
    var m := IndexBySku(b2b.products);
    assert HasSku(b2b.products, b2c.products[i].sku);
    var x := Compare(b2c.products[i], m[b2c.products[i].sku]);
    ComparePricesMembers(b2c, b2b, x);
  }

  /** Comparisons with equal savings appear in consumer search order. */
  lemma ComparePricesStable(b2c: SearchResult, b2b: SearchResult, v: real)
    ensures WithSavings(ComparePrices(Some(b2c), Some(b2b)), v)
            == WithSavings(Join(b2c.products, IndexBySku(b2b.products)), v)
  {
    SortIsStable(Join(b2c.products, IndexBySku(b2b.products)), v);
  }
}

=== FILE: common.dfy ===
/** Shared vocabulary: optional values, Python truthiness of optional strings,
    the string operations the client relies on, and the shape of a GraphQL reply. */
module Common {

  datatype Option<+T> = None | Some(value: T)

  /** An optional string is truthy in Python when it is present and non-empty. */
  predicate Truthy(s: Option<string>) {
    s.Some? && s.value != ""
  }

  /** Python's `a or b` on two optional strings. */
  function Or(a: Option<string>, b: Option<string>): (r: Option<string>)
    ensures Truthy(r) <==> Truthy(a) || Truthy(b)
    ensures Truthy(a) ==> r == a
    ensures !Truthy(a) ==> r == b
  {
    if Truthy(a) then a else b
  }

  /** `t` occurs at the start of `s`. */
  predicate IsPrefix(t: string, s: string) {
    |t| <= |s| && s[..|t|] == t
  }

  /** `t` occurs somewhere in `s` (Python's `t in s`). */
  predicate Contains(s: string, t: string)
    decreases |s|
  {
    IsPrefix(t, s) || (|s| > 0 && Contains(s[1..], t))
  }

  /** `t` is no longer than `s` when `s` contains it. */
  lemma {:induction false} ContainsLength(s: string, t: string)
    requires Contains(s, t)
    ensures |t| <= |s|
    decreases |s|
  {
    if !IsPrefix(t, s) {
      ContainsLength(s[1..], t);
    }
  }

  /** A string shorter than `t` does not contain it. */
  lemma ShortHasNoOccurrence(s: string, t: string)
    requires |s| < |t|
    ensures !Contains(s, t)
  {
    if Contains(s, t) {
      ContainsLength(s, t);
    }
  }

  /** Python's `s.replace(pat, "")`: scan left to right and delete every
      non-overlapping occurrence of `pat`. A string without `pat` is left
      alone, and one with it loses at least one occurrence's worth. */
  function RemoveAll(s: string, pat: string): (r: string)
    requires pat != []
    ensures |r| <= |s|
    ensures !Contains(s, pat) ==> r == s
    ensures Contains(s, pat) ==> |r| <= |s| - |pat|
    decreases |s|
  {
    if |s| < |pat| then
      ShortHasNoOccurrence(s, pat); s
    else if s[..|pat|] == pat then RemoveAll(s[|pat|..], pat)
    else
      assert !Contains(s, pat) ==> !Contains(s[1..], pat);
      assert [s[0]] + s[1..] == s;
      [s[0]] + RemoveAll(s[1..], pat)
  }

  /** A leading occurrence of `pat` is deleted. */
  lemma RemoveAllLeading(pat: string, s: string)
    requires pat != []
    ensures RemoveAll(pat + s, pat) == RemoveAll(s, pat)
  {
    assert (pat + s)[..|pat|] == pat;
    assert (pat + s)[|pat|..] == s;
  }

  /** `k` copies of `s` laid end to end. */
  function Repeat(s: string, k: nat): string {
    if k == 0 then [] else s + Repeat(s, k - 1)
  }

  /** Every copy goes, not only the first: `k` copies of `pat` leave
      nothing behind. */
  lemma {:induction false} RemoveAllCopies(pat: string, k: nat)
    requires pat != []
    ensures RemoveAll(Repeat(pat, k), pat) == []
  {
    if k > 0 {
      RemoveAllLeading(pat, Repeat(pat, k - 1));
      RemoveAllCopies(pat, k - 1);
    }
  }

  /** A character that cannot start `pat` is copied through unchanged. */
  lemma RemoveAllCons(c: char, t: string, pat: string)
    requires pat != [] && c != pat[0]
    ensures RemoveAll([c] + t, pat) == [c] + RemoveAll(t, pat)
  {
    var s := [c] + t;
    assert s[1..] == t;
    if |s| >= |pat| {
      assert s[..|pat|][0] == c;
    } else {
      RemoveAllAbsentShort(s, pat);
      RemoveAllAbsentShort(t, pat);
    }
  }

  /** Characters that cannot start `pat` are copied through unchanged. */
  lemma {:induction false} RemoveAllSkip(a: string, b: string, pat: string)
    requires pat != []
    requires forall i :: 0 <= i < |a| ==> a[i] != pat[0]
    ensures RemoveAll(a + b, pat) == a + RemoveAll(b, pat)
    decreases |a|
  {
    if a == [] {
      assert a + b == b;
    } else {
      var c, rest := a[0], a[1..];
      calc {
        RemoveAll(a + b, pat);
        { ConsAssoc(a, b); }
        RemoveAll([c] + (rest + b), pat);
        { RemoveAllCons(c, rest + b, pat); }
        [c] + RemoveAll(rest + b, pat);
        { RemoveAllSkip(rest, b, pat); }
        [c] + (rest + RemoveAll(b, pat));
        { ConsAssoc(a, RemoveAll(b, pat)); }
        a + RemoveAll(b, pat);
      }
    }
  }

  /** Splitting off the first element of a concatenation. */
  lemma ConsAssoc<T>(a: seq<T>, b: seq<T>)
    requires a != []
    ensures a + b == [a[0]] + (a[1..] + b)
  {
  }

  /** Strings shorter than `pat` are returned unchanged. */
  lemma RemoveAllAbsentShort(s: string, pat: string)
    requires pat != []
    requires |s| < |pat|
    ensures RemoveAll(s, pat) == s
  {
  }

  /** ASCII case folding of one character; other characters are kept. */
  function LowerChar(c: char): char {
    if 'A' <= c <= 'Z' then (c as int + 32) as char else c
  }

  /** Python's `s.lower()` restricted to ASCII letters. */
  function Lower(s: string): (r: string)
    ensures |r| == |s|
    ensures forall i :: 0 <= i < |s| ==> r[i] == LowerChar(s[i])
  {
    seq(|s|, i requires 0 <= i < |s| => LowerChar(s[i]))
  }

  predicate IsDigits(s: string) {
    forall i :: 0 <= i < |s| ==> '0' <= s[i] <= '9'
  }

  /** The parsed JSON body of a GraphQL reply: the optional "errors" list
      (each error rendered as its text) and the optional "data" payload. */
  datatype Body<D> = Body(errors: Option<seq<string>>, data: Option<D>)

  /** The outcome of one HTTP request: a transport-level failure
      (connection error, timeout, non-2xx status, undecodable body) or a body. */
  datatype Reply<D> = TransportError | Received(body: Body<D>)
}

=== FILE: config.dfy ===
/** The client's configuration: one profile per storefront, the
    business-storefront credentials and token, and the request settings. */
module Config {
  import opened Common

  /** One storefront: display name, GraphQL endpoint, store header value,
      and whether it expects a login. */
  datatype PlatformConfig = PlatformConfig(
    name: string,
    endpoint: string,
    storeCode: string,
    requiresAuth: bool)

  /** Credentials and bearer token for the business storefront. */
  datatype AuthConfig = AuthConfig(
    username: Option<string>,
    password: Option<string>,
    customerToken: Option<string>)

  datatype MMConfig = MMConfig(
    b2c: PlatformConfig,
    b2b: PlatformConfig,
    b2bAuth: AuthConfig,
    timeout: int,
    retryAttempts: int,
    rateLimitDelay: real,
    userAgent: string)

  const DefaultB2c := PlatformConfig(
    "online.mmvietnam.com", "https://online.mmvietnam.com/graphql", "b2c_10010_vi", false)

  const DefaultB2b := PlatformConfig(
    "mmpro.vn", "https://mmpro.vn/graphql", "mm_10010_vi", true)

  /** A browser-like agent string; the business storefront refuses others. */
  const DefaultUserAgent := "Mozilla/5.0 (X11; Linux x86_64) AppleWebKit/537.36 (KHTML, like Gecko) Chrome/130.0.0.0 Safari/537.36"

  /** The default configuration. `env` carries the three environment
      variables for username, password and token, each absent when unset. */
  function DefaultConfig(env: AuthConfig): (c: MMConfig)
    ensures c.b2c.storeCode == "b2c_10010_vi" && !c.b2c.requiresAuth
    ensures c.b2b.storeCode == "mm_10010_vi" && c.b2b.requiresAuth
    ensures c.b2bAuth == env
    ensures c.timeout == 30 && c.retryAttempts == 3 && c.rateLimitDelay == 1.0
  {
    MMConfig(DefaultB2c, DefaultB2b, env, 30, 3, 1.0, DefaultUserAgent)
  }

  /** Stores new credentials; the token and everything else are kept. */
  function SetB2bCredentials(c: MMConfig, username: string, password: string): (r: MMConfig)
    ensures r.b2bAuth.username == Some(username) && r.b2bAuth.password == Some(password)
    ensures r.b2bAuth.customerToken == c.b2bAuth.customerToken
    ensures r.(b2bAuth := c.b2bAuth) == c
  {
    c.(b2bAuth := c.b2bAuth.(username := Some(username), password := Some(password)))
  }

  /** Stores a token directly; the credentials and everything else are kept. */
  function SetB2bToken(c: MMConfig, token: string): (r: MMConfig)
    ensures r.b2bAuth.customerToken == Some(token)
    ensures r.b2bAuth.username == c.b2bAuth.username && r.b2bAuth.password == c.b2bAuth.password
    ensures r.(b2bAuth := c.b2bAuth) == c
  {
    c.(b2bAuth := c.b2bAuth.(customerToken := Some(token)))
  }
}

=== FILE: executor.dfy ===
/** Execution of one GraphQL operation: a bounded retry loop with
    exponential backoff on transport failures and re-authentication when
    the business storefront reports an authorization error.

    The network is a pair of oracles: `net(k)` is the reply to the k-th
    request of this execution (counting from 0), and `logins(j)` is the
    reply to the j-th login request made for re-authentication. */
module Executor {
  import opened Common
  import opened Config
  import opened Auth

  datatype Platform = B2C | B2B

  /** The storefront tag products carry. */
  function PlatformName(p: Platform): string {
    if p == B2C then "b2c" else "b2b"
  }

  function Pow2(k: nat): nat {
    if k == 0 then 1 else 2 * Pow2(k - 1)
  }

  /** What an execution did: the headers of every request in order, the
      backoff sleeps in seconds, and the number of login requests. */
  datatype Trace = Trace(sent: seq<Headers>, sleeps: seq<nat>, logins: nat)

  const NoTrace := Trace([], [], 0)

  /** The final result (the reply body, when the operation succeeded), the
      authenticator state afterwards, and the trace. */
  datatype Execution<D> = Execution(result: Option<Body<D>>, client: AuthClient, trace: Trace)

  /** Python's `any` over the errors: some error's text mentions
      "authorization", ignoring ASCII case. */
  function MentionsAuthorization(errors: seq<string>): (r: bool)
    ensures r <==> exists i | 0 <= i < |errors| :: Contains(Lower(errors[i]), "authorization")
  {
    if errors == [] then false
    else
      assert forall i :: 1 <= i < |errors| ==> errors[i] == errors[1..][i - 1];
      Contains(Lower(errors[0]), "authorization") || MentionsAuthorization(errors[1..])
  }

  /** A received reply whose errors mention authorization. */
  predicate AuthorizationError<D>(reply: Reply<D>) {
    reply.Received? && reply.body.errors.Some? && MentionsAuthorization(reply.body.errors.value)
  }

  /** The headers computed before the first attempt. */
  function InitialHeaders(c: AuthClient, p: Platform): Headers {
    if p == B2C then B2cHeaders(c) else B2bHeaders(c)
  }

  /** The outcome of one attempt: go on to the next attempt with the given
      state, headers and trace, or finish with an execution. */
  datatype Outcome<D> =
    | Next(client: AuthClient, headers: Headers, trace: Trace)
    | Done(execution: Execution<D>)

  /** The backoff due after attempt `k` of `n`: 2^k seconds after a
      transport failure, unless it was the last attempt. */
  function Backoff<D>(net: nat -> Reply<D>, n: int, k: nat): seq<nat> {
    if net(k).TransportError? && k < n - 1 then [Pow2(k)] else []
  }

  /** Attempt `k` of `n`, sending headers `h`, having done `tr` so far. Each
      attempt sends exactly one request and at most one login request; on
      the consumer storefront only a transport failure with attempts left
      goes on. */
  function Attempt<D>(p: Platform, n: int, k: nat, c: AuthClient, h: Headers, tr: Trace,
                      net: nat -> Reply<D>, logins: nat -> LoginReply): (o: Outcome<D>)
    ensures var t := if o.Next? then o.trace else o.execution.trace;
            && t.sent == tr.sent + [h]
            && t.sleeps == tr.sleeps + Backoff(net, n, k)
            && tr.logins <= t.logins <= tr.logins + 1
    ensures o.Done? && o.execution.result.Some? ==>
              net(k) == Received(o.execution.result.value) && o.execution.result.value.errors.None?
    ensures p == B2C ==> (o.Next? <==> net(k).TransportError? && k < n - 1)
    ensures p == B2C && o.Next? ==> o.client == c && o.headers == h && o.trace.logins == tr.logins
    ensures p == B2C && o.Done? ==> o.execution.client == c && o.execution.trace.logins == tr.logins
  {
    var tr1 := tr.(sent := tr.sent + [h]);
    match net(k)
    case TransportError =>
      if k < n - 1 then Next(c, h, tr1.(sleeps := tr1.sleeps + [Pow2(k)]))
      else Done(Execution(None, c, tr1))
    case Received(body) =>
      if body.errors.None? then Done(Execution(Some(body), c, tr1))
      else if p == B2B && MentionsAuthorization(body.errors.value) then
        var login := AuthenticateB2b(c, None, None, logins(tr.logins));
        var tr2 := tr1.(logins := tr.logins + if login.sent.Some? then 1 else 0);
        if login.ok then Next(login.client, B2bHeaders(login.client), tr2)
        else Done(Execution(None, login.client, tr2))
      else Done(Execution(None, c, tr1))
  }

  /** On either storefront, an attempt goes on exactly after a transport
      failure with attempts left, keeping the state and headers, or after an
      authorization error on the business storefront followed by a
      successful login, with the new state and its headers. Every other
      reply ends the run with the state unchanged, and only the business
      re-login makes a login request. */
  lemma AttemptGoesOn<D>(p: Platform, n: int, k: nat, c: AuthClient, h: Headers, tr: Trace,
                         net: nat -> Reply<D>, logins: nat -> LoginReply)
    ensures var o := Attempt(p, n, k, c, h, tr, net, logins);
            var login := AuthenticateB2b(c, None, None, logins(tr.logins));
            && (o.Next? <==> (net(k).TransportError? && k < n - 1)
                             || (p == B2B && AuthorizationError(net(k)) && login.ok))
            && (o.Next? && net(k).TransportError? ==>
                  o.client == c && o.headers == h && o.trace.logins == tr.logins)
            && (o.Next? && net(k).Received? ==>
                  o.client == login.client && o.headers == B2bHeaders(login.client)
                  && o.trace.logins == tr.logins + 1)
            && (o.Done? ==> o.execution.client == c)
            && (!(p == B2B && AuthorizationError(net(k))) ==>
                  (if o.Next? then o.trace.logins else o.execution.trace.logins) == tr.logins)
  {
  }

  /** The attempts `k`, `k + 1`, … of a loop of `n` attempts, sending
      headers `h`, having done `tr` so far. */
  function Run<D>(p: Platform, n: int, k: nat, c: AuthClient, h: Headers, tr: Trace,
                  net: nat -> Reply<D>, logins: nat -> LoginReply): (e: Execution<D>)
    decreases if k < n then n - k else 0
  {
    if k >= n then Execution(None, c, tr)
    else
      match Attempt(p, n, k, c, h, tr, net, logins)
      case Next(c', h', tr') => Run(p, n, k + 1, c', h', tr', net, logins)
      case Done(e) => e
  }

  /** The sleeps due to the first `m` attempts of `n`. */
  function Backoffs<D>(net: nat -> Reply<D>, n: int, m: nat): seq<nat> {
    if m == 0 then [] else Backoffs(net, n, m - 1) + Backoff(net, n, m - 1)
  }

  /** A run only appends to the trace, makes at most one request per
      remaining attempt, at least one if any attempt remains (the first with
      headers `h`), and at most one login request per request. */
  lemma {:induction false} RunShape<D>(p: Platform, n: int, k: nat, c: AuthClient, h: Headers, tr: Trace,
                                       net: nat -> Reply<D>, logins: nat -> LoginReply)
    ensures var e := Run(p, n, k, c, h, tr, net, logins);
            && |tr.sent| <= |e.trace.sent| <= |tr.sent| + (if k < n then n - k else 0)
            && e.trace.sent[..|tr.sent|] == tr.sent
            && (k < n ==> |e.trace.sent| > |tr.sent| && e.trace.sent[|tr.sent|] == h)
            && tr.logins <= e.trace.logins <= tr.logins + (|e.trace.sent| - |tr.sent|)
    decreases if k < n then n - k else 0
  {
    if k < n {
      match Attempt(p, n, k, c, h, tr, net, logins)
      case Next(c', h', tr') =>
        RunShape(p, n, k + 1, c', h', tr', net, logins);
        var e := Run(p, n, k + 1, c', h', tr', net, logins);
        assert e.trace.sent[..|tr'.sent|] == tr'.sent;
        assert e.trace.sent[..|tr.sent|] == tr'.sent[..|tr.sent|];
      case Done(e) =>
    }
  }

  /** A result is the body of the last reply, which had no errors; the run
      never answers with a reply that carried errors. */
  lemma {:induction false} RunResult<D>(p: Platform, n: int, k: nat, c: AuthClient, h: Headers, tr: Trace,
                                        net: nat -> Reply<D>, logins: nat -> LoginReply)
    requires |tr.sent| == k
    ensures var e := Run(p, n, k, c, h, tr, net, logins);
            e.result.Some? ==>
              && |e.trace.sent| >= 1
              && net(|e.trace.sent| - 1) == Received(e.result.value)
              && e.result.value.errors.None?
    decreases if k < n then n - k else 0
  {
    if k < n {
      match Attempt(p, n, k, c, h, tr, net, logins)
      case Next(c', h', tr') =>
        RunResult(p, n, k + 1, c', h', tr', net, logins);
      case Done(e) =>
    }
  }

  /** The sleeps are exactly the backoffs of the attempts made. */
  lemma {:induction false} RunBackoffs<D>(p: Platform, n: int, k: nat, c: AuthClient, h: Headers, tr: Trace,
                                          net: nat -> Reply<D>, logins: nat -> LoginReply)
    requires |tr.sent| == k && tr.sleeps == Backoffs(net, n, k)
    ensures var e := Run(p, n, k, c, h, tr, net, logins);
            e.trace.sleeps == Backoffs(net, n, |e.trace.sent|)
    decreases if k < n then n - k else 0
  {
    if k < n {
      match Attempt(p, n, k, c, h, tr, net, logins)
      case Next(c', h', tr') =>
        RunBackoffs(p, n, k + 1, c', h', tr', net, logins);
      case Done(e) =>
    }
  }

  /** On the consumer storefront nothing re-authenticates: the state is
      unchanged, no login request is made and every request carries the
      initial headers. */
  lemma {:induction false} RunB2cKeepsState<D>(n: int, k: nat, c: AuthClient, h: Headers, tr: Trace,
                                               net: nat -> Reply<D>, logins: nat -> LoginReply)
    ensures var e := Run(B2C, n, k, c, h, tr, net, logins);
            && e.client == c
            && e.trace.logins == tr.logins
            && forall i :: |tr.sent| <= i < |e.trace.sent| ==> e.trace.sent[i] == h
    decreases if k < n then n - k else 0
  {
    if k < n {
      match Attempt(B2C, n, k, c, h, tr, net, logins)
      case Next(c', h', tr') =>
        RunB2cKeepsState(n, k + 1, c, h, tr', net, logins);
        RunShape(B2C, n, k + 1, c, h, tr', net, logins);
        var e := Run(B2C, n, k + 1, c, h, tr', net, logins);
        assert e.trace.sent[|tr.sent|] == e.trace.sent[..|tr'.sent|][|tr.sent|] == h;
      case Done(e) =>
    }
  }

  /** A reply with errors ends the run at once with no result, unless it is
      an authorization error on the business storefront. */
  lemma ErrorsEndRun<D>(p: Platform, n: int, k: nat, c: AuthClient, h: Headers, tr: Trace,
                        net: nat -> Reply<D>, logins: nat -> LoginReply)
    requires k < n && net(k).Received? && net(k).body.errors.Some?
    requires p == B2C || !MentionsAuthorization(net(k).body.errors.value)
    ensures Run(p, n, k, c, h, tr, net, logins) == Execution(None, c, tr.(sent := tr.sent + [h]))
  {
  }

  /** A reply without errors is returned unchanged as the result. */
  lemma CleanReplyReturned<D>(p: Platform, n: int, k: nat, c: AuthClient, h: Headers, tr: Trace,
                              net: nat -> Reply<D>, logins: nat -> LoginReply)
    requires k < n && net(k).Received? && net(k).body.errors.None?
    ensures Run(p, n, k, c, h, tr, net, logins) == Execution(Some(net(k).body), c, tr.(sent := tr.sent + [h]))
  {
  }

  /** A transport failure with attempts left sleeps 2^k seconds and tries
      again with the same state and headers. */
  lemma TransportFailureRetries<D>(p: Platform, n: int, k: nat, c: AuthClient, h: Headers, tr: Trace,
                                   net: nat -> Reply<D>, logins: nat -> LoginReply)
    requires k < n - 1 && net(k).TransportError?
    ensures Run(p, n, k, c, h, tr, net, logins)
            == Run(p, n, k + 1, c, h, Trace(tr.sent + [h], tr.sleeps + [Pow2(k)], tr.logins), net, logins)
  {
  }

  /** A transport failure on the last attempt ends the run with no result
      and no sleep. */
  lemma TransportFailureOnLastAttempt<D>(p: Platform, n: int, c: AuthClient, h: Headers, tr: Trace,
                                         net: nat -> Reply<D>, logins: nat -> LoginReply)
    requires n >= 1 && net(n - 1).TransportError?
    ensures Run(p, n, n - 1, c, h, tr, net, logins) == Execution(None, c, tr.(sent := tr.sent + [h]))
  {
  }

  /** An authorization error whose re-login fails ends the run at once with
      no result and the state unchanged; a login request was made exactly
      when credentials are configured. */
  lemma ReauthFailureEndsRun<D>(n: int, k: nat, c: AuthClient, h: Headers, tr: Trace,
                                net: nat -> Reply<D>, logins: nat -> LoginReply)
    requires k < n && AuthorizationError(net(k))
    requires !AuthenticateB2b(c, None, None, logins(tr.logins)).ok
    ensures var e := Run(B2B, n, k, c, h, tr, net, logins);
            && e.result.None? && e.client == c
            && e.trace.sent == tr.sent + [h] && e.trace.sleeps == tr.sleeps
            && (e.trace.logins == tr.logins + 1 <==>
                  Truthy(c.config.b2bAuth.username) && Truthy(c.config.b2bAuth.password))
            && tr.logins <= e.trace.logins <= tr.logins + 1
  {
  }

  /** A re-login whose reply carries a null token counts as successful:
      with an attempt left the run goes on, and the next request carries
      no Authorization header. */
  lemma ReauthNullTokenDropsHeader<D>(n: int, k: nat, c: AuthClient, h: Headers, tr: Trace,
                                      net: nat -> Reply<D>, logins: nat -> LoginReply)
    requires k + 1 < n && AuthorizationError(net(k))
    requires Truthy(c.config.b2bAuth.username) && Truthy(c.config.b2bAuth.password)
    requires logins(tr.logins) == Received(Body(None, Some(Some(None))))
    ensures var e := Run(B2B, n, k, c, h, tr, net, logins);
            |e.trace.sent| >= |tr.sent| + 2
            && e.trace.sent[|tr.sent| + 1].authorization.None?
  {
    var login := AuthenticateB2b(c, None, None, logins(tr.logins));
    var tr2 := tr.(sent := tr.sent + [h], logins := tr.logins + 1);
    RunShape(B2B, n, k + 1, login.client, B2bHeaders(login.client), tr2, net, logins);
  }

  /** A successful re-authentication uses up an attempt: on the last attempt
      the run ends with no result, although the login succeeded and the
      new token is stored. */
  lemma ReauthOnLastAttemptFails<D>(n: int, c: AuthClient, h: Headers, tr: Trace,
                                    net: nat -> Reply<D>, logins: nat -> LoginReply, token: string)
    requires n >= 1
    requires net(n - 1).Received? && net(n - 1).body.errors.Some?
    requires MentionsAuthorization(net(n - 1).body.errors.value)
    requires Truthy(c.config.b2bAuth.username) && Truthy(c.config.b2bAuth.password)
    requires logins(tr.logins) == Received(Body(None, Some(Some(Some(token)))))
    ensures var e := Run(B2B, n, n - 1, c, h, tr, net, logins);
            e.result.None? && e.client.token == Some(token) && |e.trace.sent| == |tr.sent| + 1
  {
  }

  /** After a successful re-authentication that leaves an attempt, the next
      request carries the new bearer token. */
  lemma ReauthRefreshesHeaders<D>(n: int, k: nat, c: AuthClient, h: Headers, tr: Trace,
                                  net: nat -> Reply<D>, logins: nat -> LoginReply, token: string)
    requires k + 1 < n && token != ""
    requires net(k).Received? && net(k).body.errors.Some?
    requires MentionsAuthorization(net(k).body.errors.value)
    requires Truthy(c.config.b2bAuth.username) && Truthy(c.config.b2bAuth.password)
    requires logins(tr.logins) == Received(Body(None, Some(Some(Some(token)))))
    ensures var e := Run(B2B, n, k, c, h, tr, net, logins);
            |e.trace.sent| >= |tr.sent| + 2
            && e.trace.sent[|tr.sent| + 1].authorization == Some("Bearer " + token)
  {
    var login := AuthenticateB2b(c, None, None, logins(tr.logins));
    var tr2 := tr.(sent := tr.sent + [h], logins := tr.logins + 1);
    RunShape(B2B, n, k + 1, login.client, B2bHeaders(login.client), tr2, net, logins);
  }

  /** The retry loop: runs the attempts of a budget of `n`, starting with
      headers `h0`, and computes the reference `Run`. */
  method RetryLoop<D>(p: Platform, n: int, c: AuthClient, h0: Headers, net: nat -> Reply<D>,
                      logins: nat -> LoginReply) returns (e: Execution<D>)
    ensures e == Run(p, n, 0, c, h0, NoTrace, net, logins)
  {
    var k: nat := 0;
    var client := c;
    var h := h0;
    var tr := NoTrace;
    var done := false;
    e := Execution(None, c, NoTrace);
    while k < n && !done
      invariant done ==> e == Run(p, n, 0, c, h0, NoTrace, net, logins)
      invariant !done ==> Run(p, n, k, client, h, tr, net, logins) == Run(p, n, 0, c, h0, NoTrace, net, logins)
      decreases n - k, if done then 0 else 1
    {
      match Attempt(p, n, k, client, h, tr, net, logins) {
        case Done(r) =>
          e, done := r, true;
        case Next(client', h', tr') =>
          client, h, tr := client', h', tr';
          k := k + 1;
      }
    }
    if !done {
      e := Execution(None, client, tr);
    }
  }

  /** Runs the retry loop for one operation on platform `p`, with the
      attempt budget from the configuration. */
  method ExecuteQuery<D>(c: AuthClient, p: Platform, net: nat -> Reply<D>,
                         logins: nat -> LoginReply) returns (e: Execution<D>)
    ensures e == Run(p, c.config.retryAttempts, 0, c, InitialHeaders(c, p), NoTrace, net, logins)
    ensures |e.trace.sent| <= if c.config.retryAttempts > 0 then c.config.retryAttempts else 0
    ensures c.config.retryAttempts <= 0 ==> e.result.None? && e.trace.sent == []
    ensures e.result.Some? ==>
              && |e.trace.sent| >= 1
              && net(|e.trace.sent| - 1) == Received(e.result.value)
              && e.result.value.errors.None?
    ensures e.trace.sleeps == Backoffs(net, c.config.retryAttempts, |e.trace.sent|)
    ensures p == B2C ==> e.client == c && e.trace.logins == 0
  {
    var n := c.config.retryAttempts;
    var h0 := InitialHeaders(c, p);
    e := RetryLoop(p, n, c, h0, net, logins);
    RunShape(p, n, 0, c, h0, NoTrace, net, logins);
    RunResult(p, n, 0, c, h0, NoTrace, net, logins);
    RunBackoffs(p, n, 0, c, h0, NoTrace, net, logins);
    if p == B2C {
      RunB2cKeepsState(n, 0, c, h0, NoTrace, net, logins);
    }
  }
}

=== FILE: models.dfy ===
/** Typed records of the catalog: prices, products, search pages and price
    comparisons, with the values derived from them. Money is a `real`. */
module Models {
  import opened Common

  datatype Price = Price(value: real, currency: string)

  /** A regular and a final price. `discountAmount` is fixed when the range
      is built (see `NewPriceRange`). */
  datatype PriceRange = PriceRange(finalPrice: Price, regularPrice: Price, discountAmount: real)

  datatype Category = Category(uid: Option<string>, name: string)

  /** A product as one storefront reports it. `platform` is the tag of the
      storefront it came from ("b2c", "b2b"), or absent. */
  datatype Product = Product(
    id: int,
    uid: string,
    name: string,
    sku: string,
    priceRange: PriceRange,
    stockStatus: string,
    urlKey: string,
    smallImageUrl: Option<string>,
    categories: seq<Category>,
    ratingSummary: Option<real>,
    platform: Option<string>)

  /** One page of search results. */
  datatype SearchResult = SearchResult(
    products: seq<Product>,
    totalCount: int,
    totalPages: int,
    currentPage: int,
    platform: string)

  /** The same SKU priced on both storefronts. */
  datatype PriceComparison = PriceComparison(
    productId: int,
    sku: string,
    name: string,
    b2cPrice: real,
    b2bPrice: real,
    difference: real,
    savingsPercentage: real,
    b2cUrl: string,
    b2bUrl: string)

  /** Builds a price range; without an explicit discount, the discount is
      what the final price saves against the regular one. */
  function NewPriceRange(finalPrice: Price, regularPrice: Price, discount: Option<real>): (r: PriceRange)
    ensures r.finalPrice == finalPrice && r.regularPrice == regularPrice
    ensures discount.Some? ==> r.discountAmount == discount.value
    ensures discount.None? ==> r.finalPrice.value + r.discountAmount == r.regularPrice.value
  {
    PriceRange(finalPrice, regularPrice,
      if discount.Some? then discount.value else regularPrice.value - finalPrice.value)
  }

  /** The range has a discount. When the discount is the one the prices
      imply, that is exactly when the final price is below the regular one. */
  function HasDiscount(pr: PriceRange): (r: bool)
    ensures pr.discountAmount == pr.regularPrice.value - pr.finalPrice.value ==>
              (r <==> pr.finalPrice.value < pr.regularPrice.value)
  {
    pr.discountAmount > 0.0
  }

  /** The discount as a percentage of the regular price, 0 when the regular
      price is not positive. */
  function DiscountPercentage(pr: PriceRange): (r: real)
    ensures pr.regularPrice.value > 0.0 ==> r * pr.regularPrice.value == pr.discountAmount * 100.0
    ensures pr.regularPrice.value > 0.0 ==> (r > 0.0 <==> HasDiscount(pr))
    ensures pr.regularPrice.value <= 0.0 ==> r == 0.0
  {
    if pr.regularPrice.value > 0.0 then pr.discountAmount / pr.regularPrice.value * 100.0 else 0.0
  }

  /** A range built without an explicit discount has a discount exactly
      when the final price is below the regular one, and then the
      percentage lies in (0, 100] for a non-negative final price. */
  lemma DerivedDiscount(finalPrice: Price, regularPrice: Price)
    ensures HasDiscount(NewPriceRange(finalPrice, regularPrice, None))
            <==> finalPrice.value < regularPrice.value
    ensures 0.0 <= finalPrice.value < regularPrice.value ==>
            0.0 < DiscountPercentage(NewPriceRange(finalPrice, regularPrice, None)) <= 100.0
  {
    var pr := NewPriceRange(finalPrice, regularPrice, None);
    var fin, reg := finalPrice.value, regularPrice.value;
    if 0.0 <= fin < reg {
      var p := DiscountPercentage(pr);
      var d := reg - fin;
      assert pr.discountAmount == d;
      assert p * reg == d * 100.0;
      FactorSign(p, reg);
      assert (p - 100.0) * reg == (d - reg) * 100.0;
      FactorSign(p - 100.0, reg);
    }
  }

  /** A product with a positive factor has the sign of the other factor. */
  lemma FactorSign(a: real, k: real)
    requires k > 0.0
    ensures a * k > 0.0 ==> a > 0.0
    ensures a * k <= 0.0 ==> a <= 0.0
  {
    if a > 0.0 {
      assert a * k > 0.0;
    } else {
      assert a * k <= 0.0;
    }
  }

  /** An explicitly supplied discount is kept even when it disagrees with
      the two prices. */
  lemma ExplicitDiscountKept(finalPrice: Price, regularPrice: Price, d: real)
    ensures NewPriceRange(finalPrice, regularPrice, Some(d)).discountAmount == d
    ensures HasDiscount(NewPriceRange(finalPrice, regularPrice, Some(d))) <==> d > 0.0
  {
  }

  /** The address prefix for a storefront tag. */
  function UrlPrefix(platform: Option<string>): string {
    if platform == Some("b2c") then "https://online.mmvietnam.com/"
    else if platform == Some("b2b") then "https://mmpro.vn/product/"
    else "/"
  }

  /** The product's canonical page address on its storefront. The slug can
      be read back from it, between the storefront's prefix and ".html". */
  function FullUrl(p: Product): (u: string)
    ensures |u| == |UrlPrefix(p.platform)| + |p.urlKey| + 5
    ensures u[..|UrlPrefix(p.platform)|] == UrlPrefix(p.platform)
    ensures u[|UrlPrefix(p.platform)|..|u| - 5] == p.urlKey
    ensures u[|u| - 5..] == ".html"
  {
    var pre := UrlPrefix(p.platform);
    var u := pre + p.urlKey + ".html";
    assert u[|pre|..|u| - 5] == p.urlKey;
    u
  }

  /** Two products of the same storefront share an address exactly when
      they share a slug. */
  lemma FullUrlRoundTrip(p: Product, q: Product)
    requires p.platform == q.platform
    ensures FullUrl(p) == FullUrl(q) <==> p.urlKey == q.urlKey
  {
  }

  /** The three storefront tags give three different addresses. */
  lemma FullUrlPerPlatform(p: Product)
    ensures p.platform == Some("b2c") ==> FullUrl(p) == "https://online.mmvietnam.com/" + p.urlKey + ".html"
    ensures p.platform == Some("b2b") ==> FullUrl(p) == "https://mmpro.vn/product/" + p.urlKey + ".html"
    ensures p.platform != Some("b2c") && p.platform != Some("b2b") ==> FullUrl(p) == "/" + p.urlKey + ".html"
  {
  }

  /** The price a buyer pays: with a derived discount, the list price less
      the discount. */
  function FinalPrice(p: Product): (r: real)
    ensures p.priceRange == NewPriceRange(p.priceRange.finalPrice, p.priceRange.regularPrice, None) ==>
              r == p.priceRange.regularPrice.value - p.priceRange.discountAmount
  {
    p.priceRange.finalPrice.value
  }

  /** The list price: with a derived discount, the final price plus the
      discount. */
  function RegularPrice(p: Product): (r: real)
    ensures p.priceRange == NewPriceRange(p.priceRange.finalPrice, p.priceRange.regularPrice, None) ==>
              r == p.priceRange.finalPrice.value + p.priceRange.discountAmount
  {
    p.priceRange.regularPrice.value
  }

  /** With a derived discount, the product is discounted exactly when it
      costs less than its list price. */
  lemma FinalIsRegularLessDiscount(p: Product)
    requires p.priceRange == NewPriceRange(p.priceRange.finalPrice, p.priceRange.regularPrice, None)
    ensures FinalPrice(p) == RegularPrice(p) - p.priceRange.discountAmount
    ensures HasDiscount(p.priceRange) <==> FinalPrice(p) < RegularPrice(p)
  {
  }

  /** In stock: the status is exactly "IN_STOCK". A status in stock reads
      "in_stock" once lower-cased. */
  function IsInStock(p: Product): (r: bool)
    ensures r ==> Lower(p.stockStatus) == "in_stock"
  {
    p.stockStatus == "IN_STOCK"
  }

  /** Only the exact, upper-case status counts as in stock: the answer
      depends on the status alone, "IN_STOCK" is in stock, and every other
      status, other spellings of it included, is not. */
  lemma InStockIsExact(p: Product)
    ensures forall q: Product :: q.stockStatus == p.stockStatus ==> IsInStock(q) == IsInStock(p)
    ensures IsInStock(p.(stockStatus := "IN_STOCK"))
    ensures forall status: string :: status != "IN_STOCK" ==> !IsInStock(p.(stockStatus := status))
    ensures !IsInStock(p.(stockStatus := "in_stock")) && !IsInStock(p.(stockStatus := "In_Stock"))
    ensures !IsInStock(p.(stockStatus := "OUT_OF_STOCK"))
  {
  }

  /** The storefront recommended by a comparison. */
  function BetterDeal(c: PriceComparison): (r: string)
    ensures r == "B2B" || r == "B2C"
    ensures r == "B2B" <==> c.difference > 0.0
  {
    if c.difference > 0.0 then "B2B" else "B2C"
  }
}

=== FILE: stores.dfy ===
/** The store directory: a fixed list of known stores keyed by numeric
    code, normalisation of storefront-specific store codes, the selected
    store, and the storefront store codes written into the configuration. */
module Stores {
  import opened Common
  import opened Config
  import opened Auth

  datatype Store = Store(code: string, name: string, region: Option<string>)

  /** The known stores, in the directory's insertion order; each is keyed
      by its own code. */
  const KnownStores: seq<Store> := [
    Store("10010", "MM Mega Market An Phú", Some("South")),
    Store("10015", "MM Mega Market Bình Phú", Some("South")),
    Store("10020", "MM Mega Market Bình Tân", Some("South")),
    Store("10035", "MM Mega Market Thủ Đức", Some("South"))
  ]

  /** The store selected when the manager is created. */
  const DefaultStore := KnownStores[0]

  /** Deletes every occurrence of "b2c_", then of "mm_", then of "_vi",
      anywhere in the code. Whitespace is kept, and a code containing none
      of the three is its own numeric code. */
  function NumericCode(code: string): (r: string)
    ensures |r| <= |code|
    ensures !Contains(code, "b2c_") && !Contains(code, "mm_") && !Contains(code, "_vi") ==> r == code
  {
    RemoveAll(RemoveAll(RemoveAll(code, "b2c_"), "mm_"), "_vi")
  }

  /** The consumer storefront's code for a store; when the store's numeric
      code is digits, it normalises back to that numeric code. */
  function B2cStoreCode(s: Store): (r: string)
    ensures IsDigits(NumericCode(s.code)) ==> NumericCode(r) == NumericCode(s.code)
  {
    NumericCodeOfB2c(NumericCode(s.code));
    "b2c_" + NumericCode(s.code) + "_vi"
  }

  /** The business storefront's code for a store; when the store's numeric
      code is digits, it normalises back to that numeric code. */
  function B2bStoreCode(s: Store): (r: string)
    ensures IsDigits(NumericCode(s.code)) ==> NumericCode(r) == NumericCode(s.code)
  {
    NumericCodeOfB2b(NumericCode(s.code));
    "mm_" + NumericCode(s.code) + "_vi"
  }

  /** The first store in `stores` whose code is `code`. */
  function LookupIn(stores: seq<Store>, code: string): (r: Option<Store>)
    ensures r.Some? ==> r.value in stores && r.value.code == code
    ensures r.None? ==> forall i :: 0 <= i < |stores| ==> stores[i].code != code
  {
    if stores == [] then None
    else if stores[0].code == code then Some(stores[0])
    else LookupIn(stores[1..], code)
  }

  /** Resolves a code in any of its spellings to a known store. */
  function GetStore(code: string): (r: Option<Store>)
    ensures r.Some? ==> r.value in KnownStores && r.value.code == NumericCode(code)
    ensures r.None? ==> forall s :: s in KnownStores ==> s.code != NumericCode(code)
  {
    LookupIn(KnownStores, NumericCode(code))
  }

  /** The known codes are distinct strings of digits. */
  lemma KnownCodes()
    ensures forall i :: 0 <= i < |KnownStores| ==> IsDigits(KnownStores[i].code)
    ensures forall i, j :: 0 <= i < j < |KnownStores| ==> KnownStores[i].code != KnownStores[j].code
  {
  }

  /** A pass that deletes a pattern starting with a non-digit leaves
      digits followed by `tail` as the digits followed by the pass over `tail`. */
  lemma DigitsPass(n: string, tail: string, pat: string)
    requires IsDigits(n) && pat != [] && !('0' <= pat[0] <= '9')
    ensures RemoveAll(n + tail, pat) == n + RemoveAll(tail, pat)
  {
    RemoveAllSkip(n, tail, pat);
  }

  lemma DigitsUntouched(n: string, pat: string)
    requires IsDigits(n) && pat != [] && !('0' <= pat[0] <= '9')
    ensures RemoveAll(n, pat) == n
  {
    DigitsPass(n, [], pat);
    assert n + [] == n;
  }

  /** The suffix "_vi" survives the first two passes and goes in the third. */
  lemma SuffixPasses()
    ensures RemoveAll("_vi", "b2c_") == "_vi"
    ensures RemoveAll("_vi", "mm_") == "_vi"
    ensures RemoveAll("_vi", "_vi") == []
  {
    RemoveAllAbsentShort("_vi", "b2c_");
    RemoveAllSkip("_vi", [], "mm_");
    assert "_vi" + [] == "_vi";
    RemoveAllLeading("_vi", []);
    assert "_vi" + [] == "_vi";
  }

  /** Digits followed by "_vi" normalise to the digits. */
  lemma NumericCodeOfSuffixed(n: string)
    requires IsDigits(n)
    ensures RemoveAll(n + "_vi", "b2c_") == n + "_vi"
    ensures RemoveAll(n + "_vi", "mm_") == n + "_vi"
    ensures NumericCode(n + "_vi") == n
  {
    SuffixPasses();
    DigitsPass(n, "_vi", "b2c_");
    DigitsPass(n, "_vi", "mm_");
    DigitsPass(n, "_vi", "_vi");
    assert n + [] == n;
  }

  /** A digit string is its own numeric code. */
  lemma NumericCodeOfPlain(n: string)
    requires IsDigits(n)
    ensures NumericCode(n) == n
  {
    DigitsUntouched(n, "b2c_");
    DigitsUntouched(n, "mm_");
    DigitsUntouched(n, "_vi");
  }

  /** The consumer spelling "b2c_<digits>_vi" normalises to the digits. */
  lemma NumericCodeOfB2c(n: string)
    ensures IsDigits(n) ==> NumericCode("b2c_" + n + "_vi") == n
  {
    if IsDigits(n) {
      NumericCodeOfSuffixed(n);
      assert "b2c_" + n + "_vi" == "b2c_" + (n + "_vi");
      RemoveAllLeading("b2c_", n + "_vi");
    }
  }

  /** The business spelling "mm_<digits>_vi" normalises to the digits. */
  lemma NumericCodeOfB2b(n: string)
    ensures IsDigits(n) ==> NumericCode("mm_" + n + "_vi") == n
  {
    if IsDigits(n) {
      NumericCodeOfSuffixed(n);
      var m := "mm_" + n + "_vi";
      assert m == "mm_" + (n + "_vi");
      assert forall i :: 0 <= i < |m| ==> m[i] != 'b';
      RemoveAllSkip(m, [], "b2c_");
      assert m + [] == m;
      RemoveAllLeading("mm_", n + "_vi");
    }
  }

  /** Each pass deletes every occurrence of its pattern, so a doubled
      prefix and a doubled suffix both go. */
  lemma NumericCodeOfDoubled(n: string)
    requires IsDigits(n)
    ensures NumericCode("b2c_b2c_" + n + "_vi_vi") == n
  {
    var rest := n + "_vi_vi";
    assert "b2c_b2c_" + n + "_vi_vi" == "b2c_" + ("b2c_" + rest);
    DoubledFirstPass(n);
    DoubledSecondPass(n);
    DoubledThirdPass(n);
  }

  lemma DoubledFirstPass(n: string)
    requires IsDigits(n)
    ensures RemoveAll("b2c_" + ("b2c_" + (n + "_vi_vi")), "b2c_") == n + "_vi_vi"
  {
    var rest := n + "_vi_vi";
    RemoveAllLeading("b2c_", "b2c_" + rest);
    RemoveAllLeading("b2c_", rest);
    DigitsPass(n, "_vi_vi", "b2c_");
    assert forall i :: 0 <= i < |"_vi_vi"| ==> "_vi_vi"[i] != 'b';
    RemoveAllSkip("_vi_vi", [], "b2c_");
    assert "_vi_vi" + [] == "_vi_vi";
  }

  lemma DoubledSecondPass(n: string)
    requires IsDigits(n)
    ensures RemoveAll(n + "_vi_vi", "mm_") == n + "_vi_vi"
  {
    DigitsPass(n, "_vi_vi", "mm_");
    assert forall i :: 0 <= i < |"_vi_vi"| ==> "_vi_vi"[i] != 'm';
    RemoveAllSkip("_vi_vi", [], "mm_");
    assert "_vi_vi" + [] == "_vi_vi";
  }

  lemma DoubledThirdPass(n: string)
    requires IsDigits(n)
    ensures RemoveAll(n + "_vi_vi", "_vi") == n
  {
    DigitsPass(n, "_vi_vi", "_vi");
    assert "_vi_vi" == "_vi" + "_vi";
    RemoveAllLeading("_vi", "_vi");
    assert "_vi" == "_vi" + [];
    RemoveAllLeading("_vi", []);
    assert n + [] == n;
  }

  /** Every known store is found again from either of its derived codes and
      from its plain code. */
  lemma StoreCodeRoundTrip(s: Store)
    requires s in KnownStores
    ensures GetStore(s.code) == Some(s)
    ensures GetStore(B2cStoreCode(s)) == Some(s)
    ensures GetStore(B2bStoreCode(s)) == Some(s)
  {
    KnownCodes();
    NumericCodeOfPlain(s.code);
    var r := GetStore(s.code);
    assert r.Some?;
    var i :| 0 <= i < |KnownStores| && KnownStores[i] == r.value;
    var j :| 0 <= j < |KnownStores| && KnownStores[j] == s;
    assert i == j;
  }

  /** The three spellings of "10010" resolve to the same store. */
  lemma SpellingsOf10010()
    ensures GetStore("10010") == Some(DefaultStore)
    ensures GetStore("b2c_10010_vi") == Some(DefaultStore)
    ensures GetStore("mm_10010_vi") == Some(DefaultStore)
  {
    StoreCodeRoundTrip(DefaultStore);
    DefaultStoreCodes();
  }

  /** The codes derived from store "10010". */
  lemma DefaultStoreCodes()
    ensures DefaultStore.code == "10010"
    ensures B2cStoreCode(DefaultStore) == "b2c_10010_vi"
    ensures B2bStoreCode(DefaultStore) == "mm_10010_vi"
  {
    CodesOf10010(DefaultStore);
  }

  lemma CodesOf10010(s: Store)
    requires s.code == "10010"
    ensures B2cStoreCode(s) == "b2c_10010_vi"
    ensures B2bStoreCode(s) == "mm_10010_vi"
  {
    NumericCodeOf10010(s.code);
    B2cCodeOf10010(s);
    B2bCodeOf10010(s);
  }

  lemma NumericCodeOf10010(code: string)
    requires code == "10010"
    ensures NumericCode(code) == code
  {
    assert IsDigits(code);
    NumericCodeOfPlain(code);
  }

  lemma B2cCodeOf10010(s: Store)
    requires NumericCode(s.code) == "10010"
    ensures B2cStoreCode(s) == "b2c_10010_vi"
  {
    Spell10010();
    assert B2cStoreCode(s) == "b2c_" + NumericCode(s.code) + "_vi";
  }

  lemma B2bCodeOf10010(s: Store)
    requires NumericCode(s.code) == "10010"
    ensures B2bStoreCode(s) == "mm_10010_vi"
  {
    Spell10010();
    assert B2bStoreCode(s) == "mm_" + NumericCode(s.code) + "_vi";
  }

  lemma Spell10010()
    ensures "b2c_" + "10010" + "_vi" == "b2c_10010_vi"
    ensures "mm_" + "10010" + "_vi" == "mm_10010_vi"
  {
  }

  lemma PaddedFirstPass(n: string)
    requires IsDigits(n)
    ensures RemoveAll(" b2c_" + n + "_vi ", "b2c_") == " " + n + "_vi "
  {
    var tail := n + "_vi ";
    assert " b2c_" + n + "_vi " == " " + ("b2c_" + tail);
    RemoveAllSkip(" ", "b2c_" + tail, "b2c_");
    RemoveAllLeading("b2c_", tail);
    PaddedTailPass(n);
    assert " " + (n + "_vi ") == " " + n + "_vi ";
  }

  lemma PaddedTailPass(n: string)
    requires IsDigits(n)
    ensures RemoveAll(n + "_vi ", "b2c_") == n + "_vi "
  {
    DigitsPass(n, "_vi ", "b2c_");
    RemoveAllSkip("_vi ", [], "b2c_");
    assert "_vi " + [] == "_vi ";
  }

  lemma PaddedSecondPass(n: string)
    requires IsDigits(n)
    ensures RemoveAll(" " + n + "_vi ", "mm_") == " " + n + "_vi "
  {
    var once := " " + n + "_vi ";
    assert forall i :: 0 <= i < |once| ==> once[i] != 'm';
    RemoveAllSkip(once, [], "mm_");
    assert once + [] == once;
  }

  lemma PaddedThirdPass(n: string)
    requires IsDigits(n)
    ensures RemoveAll(" " + n + "_vi ", "_vi") == " " + n + " "
  {
    var head := " " + n;
    assert " " + n + "_vi " == head + ("_vi" + " ");
    assert forall i :: 0 <= i < |head| ==> head[i] != '_';
    RemoveAllSkip(head, "_vi" + " ", "_vi");
    RemoveAllLeading("_vi", " ");
    RemoveAllAbsentShort(" ", "_vi");
  }

  /** Surrounding spaces are not stripped: a padded spelling keeps its
      spaces after normalisation. */
  lemma NumericCodeOfPadded(n: string)
    requires IsDigits(n)
    ensures NumericCode(" b2c_" + n + "_vi ") == " " + n + " "
  {
    PaddedFirstPass(n);
    PaddedSecondPass(n);
    PaddedThirdPass(n);
  }

  /** A padded spelling of a known code resolves to no store. */
  lemma PaddedCodeUnresolved(s: Store)
    requires s in KnownStores
    ensures GetStore(" b2c_" + s.code + "_vi ") == None
  {
    KnownCodes();
    NumericCodeOfPadded(s.code);
    assert forall t :: t in KnownStores ==> |t.code| == 5;
  }

  /** The store manager's state: the selected store, if any. */
  datatype StoreManager = StoreManager(current: Option<Store>)

  /** A new manager starts with store "10010" selected, and the default
      configuration's store codes are exactly the ones that store derives. */
  function NewStoreManager(): (m: StoreManager)
    ensures m.current == GetStore("10010")
    ensures m.current.Some?
    ensures B2cStoreCode(m.current.value) == DefaultB2c.storeCode
    ensures B2bStoreCode(m.current.value) == DefaultB2b.storeCode
  {
    SpellingsOf10010();
    DefaultStoreCodes();
    StoreManager(Some(DefaultStore))
  }

  /** Selects a store: succeeds exactly when the code resolves; on failure
      the selection is unchanged. */
  function SetCurrentStore(m: StoreManager, code: string): (r: (bool, StoreManager))
    ensures r.0 <==> GetStore(code).Some?
    ensures r.0 ==> r.1.current == GetStore(code)
    ensures !r.0 ==> r.1 == m
  {
    var store := GetStore(code);
    if store.Some? then (true, StoreManager(store)) else (false, m)
  }

  /** Writes the store codes that a resolvable code derives into both
      storefront profiles. The selected store is not touched, and an
      unresolvable code changes nothing. */
  function UpdateConfigStore(m: StoreManager, c: MMConfig, code: string): (r: (bool, StoreManager, MMConfig))
    ensures r.1 == m
    ensures r.0 <==> GetStore(code).Some?
    ensures !r.0 ==> r.2 == c
    ensures r.0 ==> r.2.b2c.storeCode == "b2c_" + NumericCode(code) + "_vi"
    ensures r.0 ==> r.2.b2b.storeCode == "mm_" + NumericCode(code) + "_vi"
    ensures r.2 == c.(b2c := c.b2c.(storeCode := r.2.b2c.storeCode), b2b := c.b2b.(storeCode := r.2.b2b.storeCode))
  {
    var store := GetStore(code);
    if store.None? then (false, m, c)
    else
      KnownCodes();
      NumericCodeOfPlain(store.value.code);
      (true, m, c.(b2c := c.b2c.(storeCode := B2cStoreCode(store.value)),
                   b2b := c.b2b.(storeCode := B2bStoreCode(store.value))))
  }


  /** The configuration is one object shared with the authenticator, so a
      store switch reaches every later request: once the authenticator holds
      the updated configuration, both storefronts send the new store code
      and the Authorization header is the same as before. */
  lemma StoreSwitchHeaders(a: AuthClient, m: StoreManager, code: string)
    requires GetStore(code).Some?
    ensures var c := UpdateConfigStore(m, a.config, code).2;
            && B2cHeaders(a.(config := c)).store == "b2c_" + NumericCode(code) + "_vi"
            && B2bHeaders(a.(config := c)).store == "mm_" + NumericCode(code) + "_vi"
            && B2bHeaders(a.(config := c)).authorization == B2bHeaders(a).authorization
            && B2bHeaders(a.(config := c)).userAgent == B2bHeaders(a).userAgent
  {
  }

  /** One entry of a live "storeList" reply: a code and a name. */
  datatype StoreEntry = StoreEntry(code: string, name: string)

  /** A store lies in `region` when its region is set, non-empty, and equal
      to `region` ignoring ASCII case. */
  predicate InRegion(s: Store, region: string) {
    s.region.Some? && s.region.value != "" && Lower(s.region.value) == Lower(region)
  }

  /** `r` is `s` with some elements left out, the rest kept in order. */
  predicate IsSubsequence(r: seq<Store>, s: seq<Store>)
    decreases |s|
  {
    r == [] || (s != [] && ((r[0] == s[0] && IsSubsequence(r[1..], s[1..])) || IsSubsequence(r, s[1..])))
  }

  /** Every sequence is a subsequence of itself. */
  lemma {:induction false} SubsequenceOfSelf(s: seq<Store>)
    ensures IsSubsequence(s, s)
    decreases |s|
  {
    if s != [] {
      SubsequenceOfSelf(s[1..]);
    }
  }

  /** The known stores, when no live listing is available: the directory in
      its own order, each store found by its own code, and every store some
      code resolves to listed. */
  function ListStores(): (r: seq<Store>)
    ensures |r| == |KnownStores| && IsSubsequence(r, KnownStores)
    ensures forall i :: 0 <= i < |r| ==> GetStore(r[i].code) == Some(r[i])
    ensures forall code :: GetStore(code).Some? ==> GetStore(code).value in r
  {
    forall s | s in KnownStores ensures GetStore(s.code) == Some(s) {
      StoreCodeRoundTrip(s);
    }
    SubsequenceOfSelf(KnownStores);
    KnownStores
  }

  /** The stores of `stores` in `region`, in their order in `stores`; a
      store listed several times is kept as often as it is listed. */
  function FilterRegion(stores: seq<Store>, region: string): (r: seq<Store>)
    ensures forall s :: s in r <==> s in stores && InRegion(s, region)
    ensures IsSubsequence(r, stores)
    ensures forall s :: multiset(r)[s] == if InRegion(s, region) then multiset(stores)[s] else 0
  {
    if stores == [] then []
    else
      var rest := FilterRegion(stores[1..], region);
      assert stores == [stores[0]] + stores[1..];
      if InRegion(stores[0], region) then [stores[0]] + rest else rest
  }

  /** Lists the stores. `fetched` is the "storeList" of the live query's
      reply, absent when there is no catalog client, the query fails or
      raises, or the reply has no "data" or no "storeList". A live list is
      taken as it is, entry by entry and without regions, even when empty;
      only an absent one falls back to the known stores. */
  function ListStoresFrom(fetched: Option<seq<StoreEntry>>): (r: seq<Store>)
    ensures fetched.None? ==> r == ListStores()
    ensures fetched.Some? ==> |r| == |fetched.value|
    ensures fetched.Some? ==> forall i :: 0 <= i < |r| ==>
              r[i] == Store(fetched.value[i].code, fetched.value[i].name, None)
  {
    if fetched.None? then ListStores()
    else seq(|fetched.value|, i requires 0 <= i < |fetched.value| =>
               Store(fetched.value[i].code, fetched.value[i].name, None))
  }

  /** Live stores carry no region, so no region filter keeps any of them. */
  lemma LiveStoresHaveNoRegion(entries: seq<StoreEntry>, region: string)
    ensures FilterRegion(ListStoresFrom(Some(entries)), region) == []
  {
  }

  /** The known stores of a region, in directory order. */
  function GetStoresByRegion(region: string): (r: seq<Store>)
    ensures forall s :: s in r <==> s in KnownStores && InRegion(s, region)
    ensures IsSubsequence(r, KnownStores)
  {
    FilterRegion(KnownStores, region)
  }

}
